=== FILE: README.md ===
# Maintenance bot: a Dafny model of the webhook core

The maintenance bot receives Telegram messages, has a language model turn each
message into a list of intents (`new_task`, `completed_task`, `query`), and
applies them one by one to a table of maintenance records (`maintenance_logs`).
This project models the part of the bot that decides what happens:

- **Normaliser** (`normalize_description`). Descriptions are compared under a
  key. The key lowercases the text, deletes a fixed list of action words
  ("fix", "fixed", …, "finished") where they stand as whole words, keeps only
  `[a-z0-9 ]`, collapses whitespace and trims. Module `Normalizer`.
- **Matcher**. For each intent, the first record in table order whose key
  equals the intent's key. Modules `Db` (`FindFirst`) and `Router`
  (`FindMatch`). The router takes the key function as a parameter and the
  webhook passes `NormalizeDescription`, so its decision lemmas hold for that
  key and for any other.
- **Intent router**. The per-intent decision table: add a pending record, add
  a completed record, mark a record completed, reject as a duplicate or as
  already completed, answer a read-only query, or "not recognized". Module
  `Router`.
- **The batch**. Intents are handled left to right. Each one sees the table
  the earlier ones left. The first failure stops the batch and replaces all
  replies with one `Error: …` line, while earlier writes stay. Module `Batch`
  states this fold once, for any handler. `Router.RunIntents` instantiates it
  with the bot's handler.
- **Table operations** (`add_task`, `get_tasks`, `complete_task`,
  `check_duplicate`, `get_summary`) over an in-memory sequence of records in
  creation order. `Offline` stands for the client that was never created; every
  operation on it fails with "Supabase not initialized". Module `Db`.
- **Digest texts** (`format_task_list`, `format_summary`). Module `Utils`.
- **Update decoding** (`extract_message_info`) over a JSON value (objects, strings, integers, booleans and null) with Python's
  truthiness, `d[k]` and `d.get(k, default)`. Modules `Json` and `Telegram`.

`Wrappers` holds `Option` and `Result`. `Text` holds the ASCII string helpers:
lowercasing, substring search, `join`, `split('\n')`, and decimal rendering of
numbers.

Python exceptions become `Err` values carrying a text. For the failures a reply
can show, this is the text `str(e)` gives. A missing description is one
example: the model's `NoDescription` error stands for the `AttributeError`
raised by `desc.lower()` when the description is `None`. The decoding errors
are raised before any reply is built, and carry texts of the model's own (see
"Left out").

Behaviour of the code worth knowing:

- The key is not idempotent. `"fix_"` has the key `"fix"`, whose own key is
  `""` (`Normalizer.NotIdempotent`). The underscore is a word character, so
  the whole-word pattern does not fire. The underscore is then stripped.
- There is no expenditure query. A query such as "how much have we spent"
  matches no keyword and is answered "Query not recognized."
  (`Router.QueryRouting`).
- "Fix leaking tap" and "fix the leaking tap" do not match. Their keys are
  "leaking tap" and "the leaking tap": only the listed action words are
  deleted, and "the" is not one of them. So a `new_task` for the second text
  adds a record instead of being rejected as a duplicate.

## Model

| member | source | states |
|---|---|---|
| Normalizer.NormalizeDescription | app/main.py:24-30 | The key contains only `a-z`, `0-9` and spaces. It never has two spaces in a row and has no space at either end. |
| Normalizer.MatchAtNone | app/main.py:27 | At one position the alternation `\b(w1\|…)\b` fails exactly when no listed word stands there between word boundaries. |
| Normalizer.MatchAtSome | app/main.py:27 | When the alternation matches at a position, it takes the first listed word, in pattern order, that stands there between word boundaries. |
| Normalizer.RemoveFromIsDropWords | app/main.py:27 | From any index outside a word run, the left-to-right substitution scan deletes exactly the maximal runs of word characters that are listed words, and copies everything else. |
| Normalizer.RemoveStopWordsIsWholeWord | app/main.py:27 | The word-removal pass equals whole-word deletion of the listed words: a listed word inside a longer word ("fixing", "fix2") is never touched. |
| Normalizer.StripLeftRemovesSpacePrefix | app/main.py:29 | Stripping on the left removes exactly the maximal whitespace prefix. |
| Normalizer.StripRightRemovesSpaceSuffix | app/main.py:29 | Stripping on the right removes exactly the maximal whitespace suffix. |
| Normalizer.CollapseSingleSpaced | app/main.py:29 | After `re.sub(r"\s+", " ", …)` every whitespace character is a single space, and no two are adjacent. |
| Normalizer.CollapseKeepsVisible | app/main.py:29 | Collapsing whitespace keeps every non-whitespace character, in order. |
| Normalizer.CollapseLeadingRun | app/main.py:29 | A leading whitespace run of any length becomes exactly one space before the collapsed rest. |
| Normalizer.CollapseRunBetween | app/main.py:29 | Each maximal whitespace run between two stretches of text becomes exactly one space. So "leaking  tap" collapses to "leaking tap" and not to "leakingtap". |
| Normalizer.PreparedSplit | app/main.py:26-28 | Lowercasing, word removal and character filtering act separately on two texts joined at a non-word character. |
| Normalizer.PreparedOfWord | app/main.py:26-28 | A single word becomes nothing when its lowercase form is listed. Otherwise it becomes its lowercase form with the non-key characters dropped. |
| Normalizer.ListedWordIgnored | app/main.py:26-27 | A listed word in any letter case, followed by a non-word character or by nothing, does not change the key. |
| Normalizer.TrailingPunctuationIgnored | app/main.py:28 | A trailing character that is neither a word character nor a key character (such as "!") does not change the key. |
| Normalizer.LeadingSpaceIgnored | app/main.py:29 | Leading whitespace does not change the key. |
| Normalizer.ListedWordAndPunctuationIgnored | app/main.py:24-30 | A listed word, a space, a text `t` and a closing punctuation mark have the key of `t`. So "Fix the leaking tap!" and "Fixed the leaking tap." both have the key of "the leaking tap". |
| Normalizer.UnlistedWordKept | app/main.py:26-28 | A word whose lowercase form is not listed and is made of key characters, such as "fixing" or "fix2", has its lowercase form as its key. |
| Normalizer.NormalizeFixedPoint | app/main.py:24-30 | A text that already has the shape of a key and contains no listed whole word is its own key. |
| Normalizer.NotIdempotent | app/main.py:24-30 | For every listed word `w`, the key of `w + "_"` is `w` lowercased, whose key is empty. So normalising twice differs from normalising once. |
| Text.Contains | app/main.py:119-132 | `word in query_text` holds exactly when the word occurs at some index of the text. |
| Db.FindFirstIsFirst | app/main.py:77 | `next(…, None)` gives the first record, in order, that satisfies the condition. It gives `None` exactly when no record does. |
| Db.GetTasks | app/db.py:19-27 | Fails exactly when there is no client, with "Supabase not initialized". Otherwise a record is listed exactly when it is in the table and passes the status filter and, for a non-empty property, the property filter. |
| Db.GetTasksUnfiltered | app/db.py:23-27 | With no status and no non-empty property, the whole table is listed in creation order. |
| Db.GetTasksAfterInsert | app/db.py:17-27 | Listing after an insert gives the earlier listing, followed by the new record when it passes the filters: results come in creation order. |
| Db.AddTask | app/db.py:14-17 | Fails exactly without a client. Otherwise the table grows by one, keeps every earlier record in place, and ends with the given record. |
| Db.AddTaskKeepsWellFormed | app/db.py:14-17 | Appending a record that is completed exactly when it has a completion time keeps the whole table so. |
| Db.CompleteTask | app/db.py:29-32 | Fails exactly without a client. Otherwise the update keeps the number of records. |
| Db.CompleteTaskSpec | app/db.py:32 | Exactly the pending records with this exact description and property become completed at `now`. Every other record is unchanged. The update reports rows exactly when one matched. |
| Db.CountMatchesPositive | app/db.py:32 | The number of updated rows is positive exactly when some record matches the update's filter. |
| Db.CompleteTaskIdempotent | app/db.py:32 | Repeating the same update changes nothing and reports no rows. |
| Db.CompleteTaskMonotone | app/db.py:32 | An update never changes a description or property, never touches a completed record, and keeps the table well formed. |
| Db.WritesEvolve | app/db.py:14-33 | Appending a record and completing records are both allowed changes. No record is deleted, none changes its description or property, and a completed record stays as it was. |
| Db.CheckDuplicate | app/db.py:42-46 | Fails exactly without a client. Otherwise it is true exactly when some pending record has exactly this description and property. |
| Db.CompleteClearsDuplicate | app/db.py:29-46 | After completing a description and property, `check_duplicate` for the same pair is false. |
| Db.GetSummary | app/db.py:34-40 | Fails exactly without a client. The summary lists exactly the completed records whose completion time is within the window. Its count is their number. The total is the integer 0 exactly when there are none; otherwise it is a float equal to the sum of their costs, a missing cost counting as 0. |
| Db.SumCostsBound | app/db.py:39 | Every record's cost is part of the total. |
| Db.SummaryAfterInsert | app/db.py:38-40 | A new record adds one to the count, and its cost to the total, exactly when it is completed within the window. |
| Utils.TaskListLineCost | app/utils.py:6 | Each task-list line starts with `- description (property)`. The ` [cost: X]` suffix is present exactly when the cost is truthy, and its digits read back as the cost. |
| Utils.FormatTaskListEmpty | app/utils.py:4-6 | The task list is "No tasks." exactly when there are no records. |
| Utils.FormatTaskListLines | app/utils.py:6 | When no description or property contains a line break, a non-empty task list, split at line breaks, is one line per record in order, each starting with `- description (property)`. |
| Utils.FormatTaskListAppend | app/utils.py:6 | Rendering two non-empty lists one after the other gives the rendering of their concatenation. |
| Utils.FormatSummaryLines | app/utils.py:8-12 | When no description or property contains a line break, the summary, split at line breaks, is the header followed by exactly one line per record, in order. |
| Utils.SummaryHeaderReadsBack | app/utils.py:9 | The header shows the count, which reads back as the count. It ends in ".0" exactly when the total is a float, that is, when some record was summed. |
| Telegram.DecodeMessage | app/telegram.py:27-31 | Decoding succeeds exactly when `chat.id`, `from.id` and `message_id` are present. Those fields, and `text` or "" when it is missing, are the result. |
| Telegram.ExtractMessageInfo | app/telegram.py:22-31 | A non-dictionary update raises. There is nothing to decode exactly when neither `message` nor `edited_message` is truthy. A truthy `message` is decoded whatever `edited_message` holds. Otherwise `edited_message` is decoded. |
| Telegram.ExtractEncoded | app/telegram.py:22-31 | Decoding the update Telegram sends for a new or an edited message gives back its chat, sender, text and message id. |
| Telegram.MissingTextIsEmpty | app/telegram.py:30 | A message without `text` decodes with the empty text, which is not truthy. |
| Batch.FoldAppend | app/main.py:67-141 | Running `a + b` runs `a`, then runs `b` on the table `a` left, unless `a` failed. |
| Batch.RepliesInOrder | app/main.py:66-142 | A batch with no failure has one reply per intent. The `k`-th reply is the `k`-th intent's reply against the table the first `k` intents left. |
| Batch.FoldPair | app/main.py:67-142 | Of two intents that do not fail, the second is handled against the table the first left, and both replies are kept in order. |
| Batch.FoldSteps | app/main.py:67-141 | A reflexive, transitive relation that every handled intent respects also relates the table before the batch to the table after it, failures included. |
| Batch.FailureKeepsEarlierWrites | app/main.py:63-145 | A failing intent stops the batch. The writes and replies before it stay, and the intents after it do not run. |
| Router.FindMatchIsFirst | app/main.py:77-78 | The match is the first candidate, in table order, whose key equals the intent's key. It is `None` exactly when no candidate's key does. |
| Router.MatchInTable | app/main.py:74-78 | A match exists exactly when some record in the table has the wanted status and the intent's scope and the same key. A found match is such a record. |
| Router.HandleIntent | app/main.py:67-141 | An unknown type replies "Task type not recognized." and touches nothing. A query never writes. A task intent fails without a client, then without a description. The only failures are those two. |
| Router.NewTaskDecision | app/main.py:72-91 | A pending match gives "Duplicate" with the table unchanged. Otherwise a completed match gives "already completed" with the table unchanged. Otherwise exactly one pending record is appended, with the intent's description, property and cost. |
| Router.CompletedTaskDecision | app/main.py:92-117 | A pending match is completed by an update keyed on the match's own description and the intent's property. The reply is "Marked completed" exactly when rows were updated, else "Could not mark". Otherwise a completed match gives "already completed" with the table unchanged. Otherwise one completed record stamped `now` is appended. |
| Router.ScopedCompletionMarks | app/main.py:97-102 | With a non-empty property, a pending match is always marked completed. |
| Router.UnscopedCompletionMisses | app/main.py:94-104 | Without a property the search is unscoped but the update asks for a missing property. When every record has a property, a pending match gives "Could not mark" and leaves the table unchanged. |
| Router.RepeatedNewTask | app/main.py:74-91 | In one batch, a second `new_task` with the same key and property as the first, however it is worded ("Fix the tap", "fixed the tap"), adds nothing: the batch does not fail, gives two replies and leaves the table the first intent left. If the first intent added a record, the second is rejected as its duplicate. |
| Router.ListingEmpty | app/main.py:122-137 | A report is its "No … tasks" text exactly when there are no records to list. |
| Router.ListingLines | app/main.py:122-137 | When no record's line contains a line break, a non-empty report, split at line breaks, is its title followed by one line per record, in order. |
| Router.QueryRouting | app/main.py:118-139 | A query never writes. It is "not recognized" exactly when the lowercased text contains no keyword. Pending keywords pick the pending report, then completed keywords pick the completed report, then "central" picks the Central report. |
| Router.QueryFailures | app/main.py:118-139 | A query without a description fails with the `AttributeError` text even without a client. Without a client, a query fails with "Supabase not initialized" exactly when a keyword picks a report, and an unrecognised query is still answered. No other query fails. |
| Router.FailureReplied | app/main.py:63-67 | After a failing intent, the table is the one the earlier intents left, and the message is `Error: ` followed by the failure. |
| Router.HandleIntentKeepsWellFormed | app/main.py:84-117 | Every intent keeps each record completed exactly when it has a completion time. |
| Router.RunKeepsWellFormed | app/main.py:67-141 | The whole batch keeps the table well formed. |
| Router.HandleIntentEvolves | app/main.py:67-141 | Every intent keeps the client, deletes no record, changes no record's description or property, and never touches a completed record, so a status only moves from pending to completed. |
| Router.RunEvolves | app/main.py:63-141 | The whole batch, whatever its intents and wherever it fails, makes only those allowed changes. |
| Router.ReplyLines | app/main.py:142 | Without a failure, and with one-line replies, the message split at line breaks is the replies in order. |
| Router.Webhook | app/main.py:54-146 | An undecodable update raises before anything is sent. No message or empty text sends nothing and writes nothing. Otherwise the reply goes to the message's chat, quoting it exactly when its id is truthy. An extraction failure or an empty intent list writes nothing and replies `Error: …` or "No tasks found.". Any other intent list leaves the table the batch left and replies with the batch's message. |

## Left out

- JSON arrays and floats: `Json.Value` has no list or float constructor. The decoder reads no such field, so a well-formed update decodes the same. An update whose `message` is a list or a number cannot be written, though: Python would take `[]` as falsy and fall through to `edited_message`, and `[1].get` would raise.
- Flask, CORS, the `/health` route and the HTTP response (app/main.py:13-22, 49-51): plumbing with no decision in it.
- The scheduled jobs and their week-window arithmetic (app/main.py:32-47): wall-clock time. `get_summary` is modelled with the window as two timestamps.
- The language model call (app/gemini.py is not part of this model): `Router.Webhook` takes it as a parameter `parse` that returns the intents or a failure.
- `send_message` (app/telegram.py:8-20): an outbound HTTP call. `Router.Webhook` returns the message it would send. A failure of the send itself is not modelled.
- The Supabase client and PostgREST null matching: the table is a sequence of records, and filters use exact equality on an optional property.
- Costs are whole numbers. The float conversion in `get_summary` is modelled only as far as rendering goes: the total renders as "0" for no rows and as "N.0" otherwise. Float rounding and exponent notation for huge totals are not modelled.
- Timestamps are natural numbers rendered in decimal, not ISO-8601 strings. One `now` serves a whole batch, where the code reads the clock for each completed record.
- The `'N/A'` default of `t.get('cost', 'N/A')` (app/main.py:123, 129): a table row always has the key, so a missing cost renders "None".
- Intents are typed records: `type` is one of four kinds, and the description and property are optional strings. A language model output of another shape is a failure of `parse`, which writes nothing. Python behaves differently for a malformed entry that comes after well-formed ones. A task that is not a dictionary, or a description that is not a string, raises inside the loop. The writes of the earlier intents then stay, and the reply is the `Error: …` line. The model does not cover that mixed case.
- Db.GetSummary: the completed records are listed in creation order. app/db.py:37-38 asks for no ordering, so the row order the database returns is unspecified. Only the count and the total are independent of it.
- Text is ASCII. Unicode lowercasing and Unicode word boundaries are not modelled. The normaliser lemmas about listed words, spaces and punctuation (`Normalizer.ListedWordIgnored`, `Normalizer.TrailingPunctuationIgnored`, `Normalizer.LeadingSpaceIgnored`, `Normalizer.ListedWordAndPunctuationIgnored`) therefore require ASCII text. On a non-ASCII letter such as "é", Python's `\w` would keep the word whole.
- Concurrent webhook deliveries: the model is sequential.
- Telegram.ExtractMessageInfo: every decoding error carries the model's own text, not Python's `str(e)`. A missing key gives `KeyError: 'chat'` where Python's `str` is `'chat'`. A non-dictionary update or `message` gives a fixed `AttributeError` text where Python names the value's type, as in `'NoneType' object has no attribute 'get'`. These errors are raised before the reply is built (app/main.py:56), so no message ever shows them. The model promises only which updates fail, not the text.

=== FILE: batch.dfy ===
/** The `for task in tasks` loop of the webhook as a fold: each intent is
    handled against the table the previous ones left, its reply is
    collected, and the first failure stops the loop. The handler is a
    parameter, so these laws hold whatever the intents do. */
module Batch {
  import opened Wrappers

  /** What one intent leaves: the table afterwards and its reply line. */
  datatype Step<S> = Step(store: S, reply: string)

  /** The table after the batch, the replies produced, and the failure that
      stopped the batch, if any. */
  datatype Run<S> = Run(store: S, replies: seq<string>, error: Option<string>)

  function Fold<S, I>(db: S, its: seq<I>, handle: (S, I) -> Result<Step<S>>): Run<S>
    decreases |its|
  {
    if its == [] then Run(db, [], None)
    else
      match handle(db, its[0])
      case Err(e) => Run(db, [], Some(e))
      case Ok(step) =>
        var rest := Fold(step.store, its[1..], handle);
        Run(rest.store, [step.reply] + rest.replies, rest.error)
  }

  /** What running more intents after `run` gives. */
  function Continue<S, I>(run: Run<S>, more: seq<I>, handle: (S, I) -> Result<Step<S>>): Run<S> {
    if run.error.Some? then run
    else
      var next := Fold(run.store, more, handle);
      Run(next.store, run.replies + next.replies, next.error)
  }

  /** Running `a + b` runs `a`, then `b` on the table `a` left, unless `a`
      failed. */
  lemma {:induction false} FoldAppend<S, I>(db: S, a: seq<I>, b: seq<I>, handle: (S, I) -> Result<Step<S>>)
    ensures Fold(db, a + b, handle) == Continue(Fold(db, a, handle), b, handle)
    decreases |a|
  {
    if a == [] {
      assert a + b == b;
    } else {
      assert (a + b)[0] == a[0];
      assert (a + b)[1..] == a[1..] + b;
      match handle(db, a[0])
      case Err(e) =>
      case Ok(step) =>
        FoldAppend(step.store, a[1..], b, handle);
        var rest := Fold(step.store, a[1..], handle);
        if rest.error.None? {
          var next := Fold(rest.store, b, handle);
          assert [step.reply] + (rest.replies + next.replies) == ([step.reply] + rest.replies) + next.replies;
        }
    }
  }

  /** A batch of two intents, neither of which fails: the second is handled
      against the table the first left, and both replies are kept in order. */
  lemma FoldPair<S, I>(db: S, x: I, y: I, handle: (S, I) -> Result<Step<S>>)
    requires handle(db, x).Ok? && handle(handle(db, x).value.store, y).Ok?
    ensures var first := handle(db, x).value;
      var second := handle(first.store, y).value;
      Fold(db, [x, y], handle) == Run(second.store, [first.reply, second.reply], None)
  {
    var first := handle(db, x).value;
    assert [x, y][1..] == [y];
    assert [y][1..] == [];
    assert Fold(first.store, [y], handle) == Run(handle(first.store, y).value.store, [handle(first.store, y).value.reply], None);
  }

  /** A batch that does not fail has one reply per intent, the `k`-th being
      the reply of the `k`-th intent against the table the earlier ones left. */
  lemma {:induction false} RepliesInOrder<S, I>(db: S, its: seq<I>, handle: (S, I) -> Result<Step<S>>, k: nat)
    requires Fold(db, its, handle).error.None? && k < |its|
    ensures |Fold(db, its, handle).replies| == |its|
    ensures var before := Fold(db, its[..k], handle);
      && before.error.None?
      && handle(before.store, its[k]).Ok?
      && Fold(db, its, handle).replies[k] == handle(before.store, its[k]).value.reply
    decreases |its|
  {
    var step := handle(db, its[0]).value;
    var rest := Fold(step.store, its[1..], handle);
    if |its| > 1 {
      RepliesInOrder(step.store, its[1..], handle, if k > 0 then k - 1 else 0);
    } else {
      assert rest == Run(step.store, [], None);
    }
    if k > 0 {
      assert its[..k] == [its[0]] + its[1..][..k - 1];
      FoldAppend(db, [its[0]], its[1..][..k - 1], handle);
      assert [its[0]][1..] == [];
    } else {
      assert its[..k] == [];
    }
  }

  /** A failing intent ends the batch with its error; the writes of the
      intents before it stay, and the intents after it do not run. */
  lemma FailureKeepsEarlierWrites<S, I>(db: S, a: seq<I>, x: I, b: seq<I>, handle: (S, I) -> Result<Step<S>>)
    requires Fold(db, a, handle).error.None?
    requires handle(Fold(db, a, handle).store, x).Err?
    ensures var before := Fold(db, a, handle);
      var run := Fold(db, a + [x] + b, handle);
      && run.store == before.store
      && run.replies == before.replies
      && run.error == Some(handle(before.store, x).error)
  {
    FoldAppend(db, a, [x] + b, handle);
    assert a + [x] + b == a + ([x] + b);
  }

  /** A property every step keeps holds after the whole batch. */
  lemma {:induction false} FoldKeeps<S, I>(db: S, its: seq<I>, handle: (S, I) -> Result<Step<S>>, inv: S -> bool)
    requires inv(db)
    requires forall s, i :: inv(s) && handle(s, i).Ok? ==> inv(handle(s, i).value.store)
    ensures inv(Fold(db, its, handle).store)
    decreases |its|
  {
    if its != [] && handle(db, its[0]).Ok? {
      FoldKeeps(handle(db, its[0]).value.store, its[1..], handle, inv);
    }
  }

  /** A relation between tables that every step respects, and that is
      reflexive and transitive, relates the table before a batch to the
      table after it. */
  lemma {:induction false} FoldSteps<S, I>(db: S, its: seq<I>, handle: (S, I) -> Result<Step<S>>, rel: (S, S) -> bool)
    requires forall s :: rel(s, s)
    requires forall s, t, u :: rel(s, t) && rel(t, u) ==> rel(s, u)
    requires forall s, i :: handle(s, i).Ok? ==> rel(s, handle(s, i).value.store)
    ensures rel(db, Fold(db, its, handle).store)
    decreases |its|
  {
    if its != [] && handle(db, its[0]).Ok? {
      var next := handle(db, its[0]).value.store;
      var last := Fold(next, its[1..], handle).store;
      FoldSteps(next, its[1..], handle, rel);
      assert Fold(db, its, handle).store == last;
      assert rel(db, next) && rel(next, last);
    }
  }
}

=== FILE: db.dfy ===
/** The task table of the maintenance bot, as an in-memory sequence of records
    in creation order. `Offline` stands for the process-wide client that was
    never created because its credentials are unset; every operation on it
    fails with the same message. */
module Db {
  import opened Wrappers
  import opened Json

  /** A point in time; the model only compares timestamps. */
  type Timestamp = nat

  datatype Status = Pending | Completed

  /** One row of the `maintenance_logs` table. */
  datatype Task = Task(
    userId: Value,
    description: string,
    property: Option<string>,
    cost: Option<nat>,
    status: Status,
    completedAt: Option<Timestamp>)

  datatype Store = Offline | Online(tasks: seq<Task>)

  const NotInitialized: string := "Supabase not initialized"

  /** A record carries a completion time exactly when it is completed. */
  predicate WellFormed(t: Task) {
    t.status == Completed <==> t.completedAt.Some?
  }

  predicate StoreWellFormed(db: Store) {
    db.Online? ==> forall k :: 0 <= k < |db.tasks| ==> WellFormed(db.tasks[k])
  }

  /** How the table may change over time: the client neither appears nor
      disappears, no record is deleted, every record keeps its description
      and property, and a completed record never changes again, so a status
      only moves from pending to completed. */
  predicate Evolves(before: Store, after: Store) {
    && before.Online? == after.Online?
    && (before.Online? ==>
          && |before.tasks| <= |after.tasks|
          && forall k :: 0 <= k < |before.tasks| ==>
               && after.tasks[k].description == before.tasks[k].description
               && after.tasks[k].property == before.tasks[k].property
               && (before.tasks[k].status == Completed ==> after.tasks[k] == before.tasks[k]))
  }

  lemma EvolvesTransitive(a: Store, b: Store, c: Store)
    requires Evolves(a, b) && Evolves(b, c)
    ensures Evolves(a, c)
  {
  }

  // ---------------------------------------------------------------------
  // Selection keeps the table's order

  /** The records satisfying `keep`, in their original order. */
  function Filter(ts: seq<Task>, keep: Task -> bool): (r: seq<Task>)
    ensures |r| <= |ts|
    decreases |ts|
  {
    if ts == [] then [] else (if keep(ts[0]) then [ts[0]] else []) + Filter(ts[1..], keep)
  }

  /** A record is selected exactly when it is in the table and satisfies `keep`. */
  lemma {:induction false} FilterMembers(ts: seq<Task>, keep: Task -> bool)
    ensures forall t :: t in Filter(ts, keep) <==> t in ts && keep(t)
    decreases |ts|
  {
    if ts != [] {
      FilterMembers(ts[1..], keep);
      assert ts == [ts[0]] + ts[1..];
    }
  }

  /** Selection distributes over concatenation, so a record inserted later is
      listed later. */
  lemma {:induction false} FilterAppend(a: seq<Task>, b: seq<Task>, keep: Task -> bool)
    ensures Filter(a + b, keep) == Filter(a, keep) + Filter(b, keep)
    decreases |a|
  {
    if a == [] {
      assert a + b == b;
    } else {
      var head := if keep(a[0]) then [a[0]] else [];
      assert (a + b)[0] == a[0];
      assert (a + b)[1..] == a[1..] + b;
      assert Filter(a + b, keep) == head + Filter(a[1..] + b, keep);
      FilterAppend(a[1..], b, keep);
      assert head + (Filter(a[1..], keep) + Filter(b, keep)) == (head + Filter(a[1..], keep)) + Filter(b, keep);
    }
  }

  /** Selecting with a condition every record meets returns the table itself. */
  lemma {:induction false} FilterAll(ts: seq<Task>, keep: Task -> bool)
    requires forall k :: 0 <= k < |ts| ==> keep(ts[k])
    ensures Filter(ts, keep) == ts
    decreases |ts|
  {
    if ts != [] {
      FilterAll(ts[1..], keep);
    }
  }

  /** `next((t for t in ts if found(t)), None)`. */
  function FindFirst(ts: seq<Task>, found: Task -> bool): Option<Task>
    decreases |ts|
  {
    if ts == [] then None
    else if found(ts[0]) then Some(ts[0])
    else FindFirst(ts[1..], found)
  }

  /** The search gives the first record that satisfies `found`, and nothing
      exactly when no record does. */
  lemma {:induction false} FindFirstIsFirst(ts: seq<Task>, found: Task -> bool)
    ensures FindFirst(ts, found).None? <==> forall k :: 0 <= k < |ts| ==> !found(ts[k])
    ensures FindFirst(ts, found).Some? ==>
      exists k :: 0 <= k < |ts| && ts[k] == FindFirst(ts, found).value && found(ts[k])
        && forall j :: 0 <= j < k ==> !found(ts[j])
    decreases |ts|
  {
    if ts != [] && !found(ts[0]) {
      FindFirstIsFirst(ts[1..], found);
      assert forall k :: 1 <= k < |ts| ==> ts[k] == ts[1..][k - 1];
      if FindFirst(ts, found).Some? {
        var k :| 0 <= k < |ts[1..]| && ts[1..][k] == FindFirst(ts, found).value
          && found(ts[1..][k]) && forall j :: 0 <= j < k ==> !found(ts[1..][j]);
        assert ts[k + 1] == FindFirst(ts, found).value;
      }
    } else if ts != [] {
      assert found(ts[0]);
    }
  }

  // ---------------------------------------------------------------------
  // get_tasks

  /** A property filter applies only when the property is a non-empty string. */
  predicate Scoped(p: Option<string>) {
    p.Some? && p.value != ""
  }

  /** The `.eq` filters `get_tasks` adds: status when given, property when scoped. */
  predicate Selected(t: Task, status: Option<Status>, property: Option<string>) {
    (status.Some? ==> t.status == status.value) && (Scoped(property) ==> t.property == property)
  }

  /** `get_tasks(status, property)`: the selected records in creation order. */
  function GetTasks(db: Store, status: Option<Status>, property: Option<string>): (r: Result<seq<Task>>)
    ensures r.Err? <==> db.Offline?
    ensures r.Err? ==> r.error == NotInitialized
    ensures r.Ok? ==> forall t :: t in r.value <==> t in db.tasks && Selected(t, status, property)
  {
    if db.Offline? then Err(NotInitialized)
    else
      FilterMembers(db.tasks, t => Selected(t, status, property));
      Ok(Filter(db.tasks, t => Selected(t, status, property)))
  }

  /** With neither filter, `get_tasks` lists the whole table. */
  lemma GetTasksUnfiltered(db: Store, property: Option<string>)
    requires db.Online? && !Scoped(property)
    ensures GetTasks(db, None, property) == Ok(db.tasks)
  {
    FilterAll(db.tasks, t => Selected(t, None, property));
  }

  /** Listing after an insert gives the earlier listing followed by the new
      record when it is selected: results come in creation order. */
  lemma GetTasksAfterInsert(ts: seq<Task>, t: Task, status: Option<Status>, property: Option<string>)
    ensures GetTasks(Online(ts + [t]), status, property).value ==
      GetTasks(Online(ts), status, property).value + (if Selected(t, status, property) then [t] else [])
  {
    var keep := u => Selected(u, status, property);
    FilterAppend(ts, [t], keep);
    assert Filter([t], keep) == (if keep(t) then [t] else []) + Filter([], keep);
  }

  // ---------------------------------------------------------------------
  // add_task

  /** `add_task(task)`: appends the record. */
  function AddTask(db: Store, t: Task): (r: Result<Store>)
    ensures r.Err? <==> db.Offline?
    ensures r.Err? ==> r.error == NotInitialized
    ensures r.Ok? ==> r.value.Online? && |r.value.tasks| == |db.tasks| + 1
    ensures r.Ok? ==> r.value.tasks[..|db.tasks|] == db.tasks && r.value.tasks[|db.tasks|] == t
  {
    if db.Offline? then Err(NotInitialized) else Ok(Online(db.tasks + [t]))
  }

  lemma AddTaskKeepsWellFormed(db: Store, t: Task)
    requires StoreWellFormed(db) && WellFormed(t) && db.Online?
    ensures StoreWellFormed(AddTask(db, t).value)
  {
    var r := AddTask(db, t).value;
    forall k | 0 <= k < |r.tasks|
      ensures WellFormed(r.tasks[k])
    {
      if k < |db.tasks| {
        assert r.tasks[k] == r.tasks[..|db.tasks|][k];
      }
    }
  }

  // ---------------------------------------------------------------------
  // complete_task

  /** The `.match` filter of `complete_task`: exact description and property
      of a pending record. */
  predicate Matches(t: Task, description: string, property: Option<string>) {
    t.description == description && t.property == property && t.status == Pending
  }

  /** The update `complete_task` applies to each matching row. */
  function MarkCompleted(t: Task, now: Timestamp): Task {
    t.(status := Completed, completedAt := Some(now))
  }

  function MarkAll(ts: seq<Task>, description: string, property: Option<string>, now: Timestamp): seq<Task>
    decreases |ts|
  {
    if ts == [] then []
    else
      [if Matches(ts[0], description, property) then MarkCompleted(ts[0], now) else ts[0]]
      + MarkAll(ts[1..], description, property, now)
  }

  /** Number of rows the update touches. */
  function CountMatches(ts: seq<Task>, description: string, property: Option<string>): nat
    decreases |ts|
  {
    if ts == [] then 0
    else (if Matches(ts[0], description, property) then 1 else 0) + CountMatches(ts[1..], description, property)
  }

  /** `complete_task(description, property)`: the updated table and the
      number of updated rows. */
  function CompleteTask(db: Store, description: string, property: Option<string>, now: Timestamp): (r: Result<(Store, nat)>)
    ensures r.Err? <==> db.Offline?
    ensures r.Err? ==> r.error == NotInitialized
    ensures r.Ok? ==> r.value.0.Online? && |r.value.0.tasks| == |db.tasks|
  {
    if db.Offline? then Err(NotInitialized)
    else
      MarkAllShape(db.tasks, description, property, now);
      Ok((Online(MarkAll(db.tasks, description, property, now)), CountMatches(db.tasks, description, property)))
  }

  /** Exactly the matching rows become completed at `now`; every other row,
      and every field other than status and completion time, is unchanged. */
  lemma {:induction false} MarkAllShape(ts: seq<Task>, description: string, property: Option<string>, now: Timestamp)
    ensures |MarkAll(ts, description, property, now)| == |ts|
    ensures forall k :: 0 <= k < |ts| ==>
      MarkAll(ts, description, property, now)[k] ==
        if Matches(ts[k], description, property) then MarkCompleted(ts[k], now) else ts[k]
    decreases |ts|
  {
    if ts != [] {
      MarkAllShape(ts[1..], description, property, now);
    }
  }

  /** The update reports rows exactly when some row matches. */
  lemma {:induction false} CountMatchesPositive(ts: seq<Task>, description: string, property: Option<string>)
    ensures CountMatches(ts, description, property) > 0 <==>
      exists k :: 0 <= k < |ts| && Matches(ts[k], description, property)
    decreases |ts|
  {
    if ts != [] {
      CountMatchesPositive(ts[1..], description, property);
      if CountMatches(ts[1..], description, property) > 0 {
        var k :| 0 <= k < |ts[1..]| && Matches(ts[1..][k], description, property);
        assert Matches(ts[k + 1], description, property);
      }
      assert forall k :: 1 <= k < |ts| ==> ts[k] == ts[1..][k - 1];
    }
  }

  /** The `complete_task` contract as a whole. */
  lemma CompleteTaskSpec(db: Store, description: string, property: Option<string>, now: Timestamp)
    requires db.Online?
    ensures CompleteTask(db, description, property, now).Ok?
    ensures var (after, n) := CompleteTask(db, description, property, now).value;
      && (forall k :: 0 <= k < |db.tasks| ==>
           after.tasks[k] == if Matches(db.tasks[k], description, property) then MarkCompleted(db.tasks[k], now) else db.tasks[k])
      && (n > 0 <==> exists k :: 0 <= k < |db.tasks| && Matches(db.tasks[k], description, property))
  {
    MarkAllShape(db.tasks, description, property, now);
    CountMatchesPositive(db.tasks, description, property);
  }

  /** Completing the same description and property again updates nothing and
      leaves the table as the first call left it. */
  lemma CompleteTaskIdempotent(db: Store, description: string, property: Option<string>, now: Timestamp, later: Timestamp)
    requires db.Online?
    ensures var after := CompleteTask(db, description, property, now).value.0;
      CompleteTask(after, description, property, later) == Ok((after, 0))
  {
    var after := CompleteTask(db, description, property, now).value.0;
    MarkAllShape(db.tasks, description, property, now);
    MarkAllShape(after.tasks, description, property, later);
    CountMatchesPositive(after.tasks, description, property);
    assert forall k :: 0 <= k < |after.tasks| ==> !Matches(after.tasks[k], description, property);
    assert MarkAll(after.tasks, description, property, later) == after.tasks;
  }

  /** A completion never reopens a record and never changes a description or
      property, and keeps the table well formed. */
  lemma CompleteTaskMonotone(db: Store, description: string, property: Option<string>, now: Timestamp)
    requires db.Online?
    ensures var after := CompleteTask(db, description, property, now).value.0;
      forall k :: 0 <= k < |db.tasks| ==>
        && after.tasks[k].description == db.tasks[k].description
        && after.tasks[k].property == db.tasks[k].property
        && (db.tasks[k].status == Completed ==> after.tasks[k] == db.tasks[k])
    ensures StoreWellFormed(db) ==> StoreWellFormed(CompleteTask(db, description, property, now).value.0)
  {
    MarkAllShape(db.tasks, description, property, now);
  }

  /** Appending a record and completing records are both allowed changes. */
  lemma WritesEvolve(db: Store, t: Task, description: string, property: Option<string>, now: Timestamp)
    requires db.Online?
    ensures Evolves(db, AddTask(db, t).value)
    ensures Evolves(db, CompleteTask(db, description, property, now).value.0)
  {
    CompleteTaskMonotone(db, description, property, now);
  }

  // ---------------------------------------------------------------------
  // check_duplicate

  /** `check_duplicate(description, property)`: whether a pending record has
      exactly this description and property. */
  function CheckDuplicate(db: Store, description: string, property: Option<string>): (r: Result<bool>)
    ensures r.Err? <==> db.Offline?
    ensures r.Err? ==> r.error == NotInitialized
    ensures r.Ok? ==> (r.value <==> exists t :: t in db.tasks && Matches(t, description, property))
  {
    if db.Offline? then Err(NotInitialized)
    else
      var found := Filter(db.tasks, t => Matches(t, description, property));
      FilterMembers(db.tasks, t => Matches(t, description, property));
      assert found != [] ==> found[0] in found;
      Ok(|found| > 0)
  }

  /** A successful completion clears the duplicate it was keyed on. */
  lemma CompleteClearsDuplicate(db: Store, description: string, property: Option<string>, now: Timestamp)
    requires db.Online?
    ensures CheckDuplicate(CompleteTask(db, description, property, now).value.0, description, property) == Ok(false)
  {
    var after := CompleteTask(db, description, property, now).value.0;
    MarkAllShape(db.tasks, description, property, now);
    assert forall t :: t in after.tasks ==> !Matches(t, description, property);
  }

  // ---------------------------------------------------------------------
  // get_summary

  /** `sum([...])` of the costs: the integer 0 for no rows, otherwise a float
      that is a whole number because every cost is one. */
  datatype Amount = IntZero | Float(whole: nat)

  datatype Summary = Summary(tasks: seq<Task>, total: Amount, count: nat)

  /** Completed with a completion time in `[start, end]`; a missing time
      compares as neither. */
  predicate InWindow(t: Task, start: Timestamp, end: Timestamp) {
    t.status == Completed && t.completedAt.Some? && start <= t.completedAt.value <= end
  }

  /** Total cost, a missing cost counting as zero. */
  function SumCosts(ts: seq<Task>): nat
    decreases |ts|
  {
    if ts == [] then 0
    else (if ts[0].cost.Some? then ts[0].cost.value else 0) + SumCosts(ts[1..])
  }

  lemma {:induction false} SumCostsAppend(a: seq<Task>, b: seq<Task>)
    ensures SumCosts(a + b) == SumCosts(a) + SumCosts(b)
    decreases |a|
  {
    if a == [] {
      assert a + b == b;
    } else {
      assert (a + b)[1..] == a[1..] + b;
      SumCostsAppend(a[1..], b);
    }
  }

  /** Each cost is part of the total. */
  lemma {:induction false} SumCostsBound(ts: seq<Task>, k: nat)
    requires k < |ts| && ts[k].cost.Some?
    ensures ts[k].cost.value <= SumCosts(ts)
    decreases |ts|
  {
    if k > 0 {
      SumCostsBound(ts[1..], k - 1);
    }
  }

  /** `get_summary(start, end)`. */
  function GetSummary(db: Store, start: Timestamp, end: Timestamp): (r: Result<Summary>)
    ensures r.Err? <==> db.Offline?
    ensures r.Err? ==> r.error == NotInitialized
    ensures r.Ok? ==> r.value.count == |r.value.tasks|
    ensures r.Ok? ==> forall t :: t in r.value.tasks <==> t in db.tasks && InWindow(t, start, end)
    ensures r.Ok? ==> (r.value.total.IntZero? <==> r.value.tasks == [])
    ensures r.Ok? && r.value.total.Float? ==> r.value.total.whole == SumCosts(r.value.tasks)
  {
    if db.Offline? then Err(NotInitialized)
    else
      var data := Filter(db.tasks, t => InWindow(t, start, end));
      FilterMembers(db.tasks, t => InWindow(t, start, end));
      Ok(Summary(data, if data == [] then IntZero else Float(SumCosts(data)), |data|))
  }

  /** An inserted record counts towards the summary, and adds its cost to the
      total, exactly when it is completed inside the window. */
  lemma SummaryAfterInsert(ts: seq<Task>, t: Task, start: Timestamp, end: Timestamp)
    ensures var before := GetSummary(Online(ts), start, end).value;
      var after := GetSummary(Online(ts + [t]), start, end).value;
      && after.count == before.count + (if InWindow(t, start, end) then 1 else 0)
      && SumCosts(after.tasks) == SumCosts(before.tasks) + (if InWindow(t, start, end) && t.cost.Some? then t.cost.value else 0)
  {
    var keep := u => InWindow(u, start, end);
    FilterAppend(ts, [t], keep);
    assert Filter([t], keep) == (if keep(t) then [t] else []) + Filter([], keep);
    SumCostsAppend(Filter(ts, keep), Filter([t], keep));
    assert SumCosts([t]) == (if t.cost.Some? then t.cost.value else 0) + SumCosts([]);
  }
}

=== FILE: json.dfy ===
/** The JSON values the bot receives from Telegram, with Python's notions of
    truthiness, `d[k]` and `d.get(k, default)` on them. */
module Json {
  import opened Wrappers

  datatype Value =
    | Null
    | Bool(b: bool)
    | Int(i: int)
    | Str(s: string)
    | Obj(fields: map<string, Value>)

  /** Python's `bool(v)`: `None`, `False`, `0`, `""` and `{}` are false. */
  predicate Truthy(v: Value) {
    match v
    case Null => false
    case Bool(b) => b
    case Int(i) => i != 0
    case Str(s) => s != ""
    case Obj(m) => m != map[]
  }

  /** `v[key]`: raises `KeyError` for a missing key and `TypeError` when `v`
      is not a dictionary. */
  function Index(v: Value, key: string): (r: Result<Value>)
    ensures r.Ok? <==> v.Obj? && key in v.fields
    ensures r.Ok? ==> r.value == v.fields[key]
  {
    if !v.Obj? then Err("TypeError: object is not subscriptable")
    else if key !in v.fields then Err("KeyError: '" + key + "'")
    else Ok(v.fields[key])
  }

  /** `v.get(key, default)`: raises `AttributeError` when `v` is not a
      dictionary. */
  function Get(v: Value, key: string, default: Value): (r: Result<Value>)
    ensures r.Ok? <==> v.Obj?
    ensures r.Ok? ==> r.value == if key in v.fields then v.fields[key] else default
  {
    if !v.Obj? then Err("AttributeError: object has no attribute 'get'")
    else if key in v.fields then Ok(v.fields[key])
    else Ok(default)
  }
}

=== FILE: normalizer.dfy ===
/** `normalize_description` (app/main.py:24-30): the comparison key under
    which task descriptions are matched. Four passes over ASCII text:
    lowercase, delete listed action words when they stand as whole words,
    keep only `[a-z0-9 ]`, collapse whitespace runs and trim. */
module Normalizer {
  import opened Text
  import opened Wrappers

  /** The alternation of the word-removal pattern, in the pattern's order. */
  const StopWords: seq<string> := [
    "fix", "fixed", "install", "installed", "repair", "repaired",
    "replace", "replaced", "paint", "painted", "clean", "cleaned",
    "mark", "marked", "complete", "completed", "finish", "finished"
  ]

  predicate AllLowerLetters(w: string) {
    forall k :: 0 <= k < |w| ==> IsLowerLetter(w[k])
  }

  // ---------------------------------------------------------------------
  // Pass 2 as the regex engine runs it: `re.sub(r"\b(w1|w2|...)\b", "", s)`

  /** Python's `\b` at index `i`: word character on exactly one side. */
  predicate BoundaryAt(s: string, i: nat)
    requires i <= |s|
  {
    (i > 0 && IsWordChar(s[i - 1])) != (i < |s| && IsWordChar(s[i]))
  }

  /** `\bw\b` matches `s` at index `i`. */
  predicate WordAt(s: string, i: nat, w: string) {
    i + |w| <= |s| && s[i..i + |w|] == w && BoundaryAt(s, i) && BoundaryAt(s, i + |w|)
  }

  /** The alternation `ws` tried left to right at index `i`: the length of
      the first alternative that matches, if any. */
  function MatchAt(s: string, i: nat, ws: seq<string>): Option<nat> {
    if ws == [] then None
    else if WordAt(s, i, ws[0]) then Some(|ws[0]|)
    else MatchAt(s, i, ws[1..])
  }

  /** The alternation fails exactly when no alternative matches. */
  lemma {:induction false} MatchAtNone(s: string, i: nat, ws: seq<string>)
    ensures MatchAt(s, i, ws).None? <==> forall k :: 0 <= k < |ws| ==> !WordAt(s, i, ws[k])
  {
    if ws != [] && !WordAt(s, i, ws[0]) {
      MatchAtNone(s, i, ws[1..]);
      assert forall k :: 1 <= k < |ws| ==> ws[k] == ws[1..][k - 1];
    }
  }

  /** A successful alternation gives the length of the first alternative
      that matches. */
  lemma {:induction false} MatchAtSome(s: string, i: nat, ws: seq<string>)
    ensures MatchAt(s, i, ws).Some? ==>
      exists k :: 0 <= k < |ws| && WordAt(s, i, ws[k]) && MatchAt(s, i, ws).value == |ws[k]|
        && forall j :: 0 <= j < k ==> !WordAt(s, i, ws[j])
  {
    if ws != [] && WordAt(s, i, ws[0]) {
      assert MatchAt(s, i, ws).value == |ws[0]|;
    } else if ws != [] && MatchAt(s, i, ws).Some? {
      var tail := ws[1..];
      MatchAtSome(s, i, tail);
      var k :| 0 <= k < |tail| && WordAt(s, i, tail[k]) && MatchAt(s, i, tail).value == |tail[k]|
        && forall j :: 0 <= j < k ==> !WordAt(s, i, tail[j]);
      assert tail[k] == ws[k + 1];
      assert forall j :: 1 <= j < k + 1 ==> ws[j] == tail[j - 1];
    }
  }

  /** The alternation fails exactly when no alternative matches, and succeeds
      with the length of the first one that does. */
  lemma MatchAtIsFirstMatch(s: string, i: nat, ws: seq<string>)
    ensures MatchAt(s, i, ws).None? <==> forall k :: 0 <= k < |ws| ==> !WordAt(s, i, ws[k])
    ensures MatchAt(s, i, ws).Some? ==>
      exists k :: 0 <= k < |ws| && WordAt(s, i, ws[k]) && MatchAt(s, i, ws).value == |ws[k]|
        && forall j :: 0 <= j < k ==> !WordAt(s, i, ws[j])
  {
    MatchAtNone(s, i, ws);
    MatchAtSome(s, i, ws);
  }

  /** The substitution scan from index `i`: at each index either a match is
      deleted and the scan resumes after it, or one character is copied. */
  function RemoveFrom(s: string, i: nat, ws: seq<string>): string
    decreases |s| - i
  {
    if i >= |s| then ""
    else match MatchAt(s, i, ws)
      case Some(n) => if n == 0 then [s[i]] + RemoveFrom(s, i + 1, ws) else RemoveFrom(s, i + n, ws)
      case None => [s[i]] + RemoveFrom(s, i + 1, ws)
  }

  function RemoveStopWords(s: string): string {
    RemoveFrom(s, 0, StopWords)
  }

  // ---------------------------------------------------------------------
  // Pass 2 as a statement about words: a maximal run of word characters is
  // deleted exactly when it is one of the listed words.

  /** Length of the run of word characters starting at `i`. */
  function RunLen(s: string, i: nat): (n: nat)
    ensures i + n <= |s| || (i >= |s| && n == 0)
    ensures i < |s| && IsWordChar(s[i]) ==> n > 0
    decreases |s| - i
  {
    if i < |s| && IsWordChar(s[i]) then 1 + RunLen(s, i + 1) else 0
  }

  /** The run is made of word characters and is maximal. */
  lemma {:induction false} RunLenIsMaximalRun(s: string, i: nat)
    requires i <= |s|
    ensures forall j :: i <= j < i + RunLen(s, i) ==> IsWordChar(s[j])
    ensures i + RunLen(s, i) < |s| ==> !IsWordChar(s[i + RunLen(s, i)])
    decreases |s| - i
  {
    if i < |s| && IsWordChar(s[i]) {
      RunLenIsMaximalRun(s, i + 1);
    }
  }

  /** Copies every non-word character and every maximal word run that is not
      in `ws`; drops the runs that are. */
  function DropWords(s: string, ws: seq<string>): string
    decreases |s|
  {
    if s == [] then ""
    else if !IsWordChar(s[0]) then [s[0]] + DropWords(s[1..], ws)
    else KeptRun(s, 0, ws) + DropWords(s[RunLen(s, 0)..], ws)
  }

  /** The word run starting at `i`, or nothing when it is one of `ws`. */
  function KeptRun(s: string, i: nat, ws: seq<string>): string
    requires i <= |s|
  {
    var run := s[i..i + RunLen(s, i)];
    if run in ws then "" else run
  }

  /** Index `i` is not strictly inside a run of word characters. */
  predicate Aligned(s: string, i: nat)
    requires i <= |s|
  {
    i == 0 || i == |s| || !IsWordChar(s[i - 1]) || !IsWordChar(s[i])
  }

  predicate LowerWords(ws: seq<string>) {
    forall k :: 0 <= k < |ws| ==> |ws[k]| > 0 && AllLowerLetters(ws[k])
  }

  lemma StopWordsAreLowerWords()
    ensures LowerWords(StopWords)
  {
  }

  /** A run of `m` word characters ended by a non-word character or the end
      of the text has length `m`. */
  lemma {:induction false} RunLenExact(s: string, i: nat, m: nat)
    requires i + m <= |s|
    requires forall j :: i <= j < i + m ==> IsWordChar(s[j])
    requires i + m == |s| || !IsWordChar(s[i + m])
    ensures RunLen(s, i) == m
    decreases m
  {
    if m > 0 {
      RunLenExact(s, i + 1, m - 1);
    }
  }

  /** A listed word can match only as a whole maximal run starting at a run start. */
  lemma WordAtIsWholeRun(s: string, i: nat, w: string)
    requires |w| > 0 && AllLowerLetters(w)
    requires WordAt(s, i, w)
    ensures i < |s| && IsWordChar(s[i]) && (i == 0 || !IsWordChar(s[i - 1]))
    ensures RunLen(s, i) == |w| && s[i..i + RunLen(s, i)] == w
  {
    forall j | i <= j < i + |w|
      ensures IsWordChar(s[j])
    {
      assert s[j] == w[j - i];
    }
    RunLenExact(s, i, |w|);
  }

  /** Inside a word run nothing matches, so the scan copies the rest of the run. */
  lemma {:induction false} RemoveInsideRun(s: string, j: nat, e: nat, ws: seq<string>)
    requires 0 < j <= e <= |s|
    requires forall k :: j - 1 <= k < e ==> IsWordChar(s[k])
    ensures RemoveFrom(s, j, ws) == s[j..e] + RemoveFrom(s, e, ws)
    decreases e - j
  {
    if j < e {
      assert !BoundaryAt(s, j);
      MatchAtIsFirstMatch(s, j, ws);
      NoMatchWithoutBoundary(s, j, ws);
      RemoveInsideRun(s, j + 1, e, ws);
      assert s[j..e] == [s[j]] + s[j + 1..e];
    }
  }

  lemma NoMatchWithoutBoundary(s: string, i: nat, ws: seq<string>)
    requires i < |s| && !BoundaryAt(s, i)
    ensures RemoveFrom(s, i, ws) == [s[i]] + RemoveFrom(s, i + 1, ws)
  {
    assert forall k :: 0 <= k < |ws| ==> !WordAt(s, i, ws[k]);
    MatchAtIsFirstMatch(s, i, ws);
  }

  /** At a non-word character nothing matches and the scan copies it. */
  lemma RemoveAtNonWord(s: string, i: nat, ws: seq<string>)
    requires LowerWords(ws)
    requires i < |s| && !IsWordChar(s[i])
    ensures RemoveFrom(s, i, ws) == [s[i]] + RemoveFrom(s, i + 1, ws)
  {
    MatchAtIsFirstMatch(s, i, ws);
    forall k | 0 <= k < |ws|
      ensures !WordAt(s, i, ws[k])
    {
      if WordAt(s, i, ws[k]) {
        WordAtIsWholeRun(s, i, ws[k]);
      }
    }
  }

  /** Every alternative that matches at the start of a run is that run. */
  lemma MatchesAreTheRun(s: string, i: nat, ws: seq<string>)
    requires LowerWords(ws)
    ensures forall k :: 0 <= k < |ws| && WordAt(s, i, ws[k]) ==>
      RunLen(s, i) == |ws[k]| && s[i..i + RunLen(s, i)] == ws[k]
  {
    forall k | 0 <= k < |ws| && WordAt(s, i, ws[k])
      ensures RunLen(s, i) == |ws[k]| && s[i..i + RunLen(s, i)] == ws[k]
    {
      WordAtIsWholeRun(s, i, ws[k]);
    }
  }

  /** At the start of a listed word run the scan deletes the run. */
  lemma RemoveListedRun(s: string, i: nat, ws: seq<string>)
    requires LowerWords(ws)
    requires i < |s| && IsWordChar(s[i]) && (i == 0 || !IsWordChar(s[i - 1]))
    requires s[i..i + RunLen(s, i)] in ws
    ensures RemoveFrom(s, i, ws) == RemoveFrom(s, i + RunLen(s, i), ws)
  {
    var n := RunLen(s, i);
    assert MatchAt(s, i, ws) == Some(n) by {
      var k :| 0 <= k < |ws| && ws[k] == s[i..i + n];
      assert WordAt(s, i, ws[k]) by {
        RunLenIsMaximalRun(s, i);
      }
      MatchAtIsFirstMatch(s, i, ws);
      MatchesAreTheRun(s, i, ws);
    }
  }

  /** No alternative matches at the start of an unlisted word run. */
  lemma NoMatchAtUnlistedRun(s: string, i: nat, ws: seq<string>)
    requires LowerWords(ws)
    requires i < |s| && s[i..i + RunLen(s, i)] !in ws
    ensures MatchAt(s, i, ws).None?
  {
    forall k | 0 <= k < |ws|
      ensures !WordAt(s, i, ws[k])
    {
      if WordAt(s, i, ws[k]) {
        WordAtIsWholeRun(s, i, ws[k]);
      }
    }
    MatchAtIsFirstMatch(s, i, ws);
  }

  /** At the start of an unlisted word run the scan copies the run. */
  lemma RemoveUnlistedRun(s: string, i: nat, ws: seq<string>)
    requires LowerWords(ws)
    requires i < |s| && IsWordChar(s[i])
    requires s[i..i + RunLen(s, i)] !in ws
    ensures RemoveFrom(s, i, ws) == s[i..i + RunLen(s, i)] + RemoveFrom(s, i + RunLen(s, i), ws)
  {
    var n := RunLen(s, i);
    NoMatchAtUnlistedRun(s, i, ws);
    RunLenIsMaximalRun(s, i);
    RemoveInsideRun(s, i + 1, i + n, ws);
    calc {
      RemoveFrom(s, i, ws);
      [s[i]] + RemoveFrom(s, i + 1, ws);
      [s[i]] + (s[i + 1..i + n] + RemoveFrom(s, i + n, ws));
      { assert s[i..i + n] == [s[i]] + s[i + 1..i + n]; }
      s[i..i + n] + RemoveFrom(s, i + n, ws);
    }
  }

  /** At the start of a word run the scan keeps exactly `KeptRun`. */
  lemma RemoveAtRunStart(s: string, i: nat, ws: seq<string>)
    requires LowerWords(ws)
    requires i < |s| && IsWordChar(s[i]) && (i == 0 || !IsWordChar(s[i - 1]))
    ensures RemoveFrom(s, i, ws) == KeptRun(s, i, ws) + RemoveFrom(s, i + RunLen(s, i), ws)
  {
    if s[i..i + RunLen(s, i)] in ws {
      RemoveListedRun(s, i, ws);
    } else {
      RemoveUnlistedRun(s, i, ws);
    }
  }

  /** A run starting at `i` is the run starting at 0 of the suffix from `i`. */
  lemma {:induction false} RunLenSuffix(s: string, i: nat)
    requires i <= |s|
    ensures RunLen(s, i) == RunLen(s[i..], 0)
    decreases |s| - i
  {
    if i < |s| && IsWordChar(s[i]) {
      RunLenSuffix(s, i + 1);
      RunLenSuffixStep(s[i..]);
      assert s[i..][1..] == s[i + 1..];
    }
  }

  lemma RunLenSuffixStep(t: string)
    requires t != [] && IsWordChar(t[0])
    ensures RunLen(t, 0) == 1 + RunLen(t[1..], 0)
  {
    RunLenSuffixFrom(t, 1);
  }

  lemma {:induction false} RunLenSuffixFrom(t: string, k: nat)
    requires 1 <= k <= |t|
    ensures RunLen(t, k) == RunLen(t[1..], k - 1)
    decreases |t| - k
  {
    if k < |t| && IsWordChar(t[k]) {
      RunLenSuffixFrom(t, k + 1);
    }
  }

  /** One step of the agreement at a non-word character. */
  lemma DropWordsAtNonWord(s: string, i: nat, ws: seq<string>)
    requires LowerWords(ws)
    requires i < |s| && !IsWordChar(s[i])
    requires RemoveFrom(s, i + 1, ws) == DropWords(s[i + 1..], ws)
    ensures RemoveFrom(s, i, ws) == DropWords(s[i..], ws)
  {
    var t := s[i..];
    RemoveAtNonWord(s, i, ws);
    assert t[1..] == s[i + 1..];
    assert DropWords(t, ws) == [t[0]] + DropWords(t[1..], ws);
  }

  /** One step of the agreement at the start of a word run. */
  lemma DropWordsAtRun(s: string, i: nat, ws: seq<string>)
    requires LowerWords(ws)
    requires i < |s| && IsWordChar(s[i]) && (i == 0 || !IsWordChar(s[i - 1]))
    requires RemoveFrom(s, i + RunLen(s, i), ws) == DropWords(s[i + RunLen(s, i)..], ws)
    ensures RemoveFrom(s, i, ws) == DropWords(s[i..], ws)
  {
    var t := s[i..];
    var n := RunLen(s, i);
    assert RunLen(t, 0) == n by {
      RunLenSuffix(s, i);
    }
    assert KeptRun(t, 0, ws) == KeptRun(s, i, ws) by {
      assert t[0..n] == s[i..i + n];
    }
    assert t[n..] == s[i + n..];
    assert DropWords(t, ws) == KeptRun(t, 0, ws) + DropWords(t[n..], ws);
    RemoveAtRunStart(s, i, ws);
  }

  /** From an aligned index the regex scan and the word-run definition agree. */
  lemma {:induction false} RemoveFromIsDropWords(s: string, i: nat, ws: seq<string>)
    requires LowerWords(ws)
    requires i <= |s| && Aligned(s, i)
    ensures RemoveFrom(s, i, ws) == DropWords(s[i..], ws)
    decreases |s| - i, 1
  {
    if i < |s| {
      if !IsWordChar(s[i]) {
        AgreeAtNonWord(s, i, ws);
      } else {
        AgreeAtRun(s, i, ws);
      }
    }
  }

  lemma {:induction false} AgreeAtNonWord(s: string, i: nat, ws: seq<string>)
    requires LowerWords(ws)
    requires i < |s| && !IsWordChar(s[i])
    ensures RemoveFrom(s, i, ws) == DropWords(s[i..], ws)
    decreases |s| - i, 0
  {
    RemoveFromIsDropWords(s, i + 1, ws);
    DropWordsAtNonWord(s, i, ws);
  }

  lemma {:induction false} AgreeAtRun(s: string, i: nat, ws: seq<string>)
    requires LowerWords(ws)
    requires i < |s| && IsWordChar(s[i]) && (i == 0 || !IsWordChar(s[i - 1]))
    ensures RemoveFrom(s, i, ws) == DropWords(s[i..], ws)
    decreases |s| - i, 0
  {
    var n := RunLen(s, i);
    assert Aligned(s, i + n) by {
      RunLenIsMaximalRun(s, i);
    }
    RemoveFromIsDropWords(s, i + n, ws);
    DropWordsAtRun(s, i, ws);
  }

  /** The substitution deletes exactly the listed words that stand as whole
      words, and copies everything else. */
  lemma RemoveStopWordsIsWholeWord(s: string)
    ensures RemoveStopWords(s) == DropWords(s, StopWords)
  {
    StopWordsAreLowerWords();
    RemoveFromIsDropWords(s, 0, StopWords);
    assert s[0..] == s;
  }

  // ---------------------------------------------------------------------
  // Passes 3 and 4

  predicate IsKeyChar(c: char) {
    IsLowerLetter(c) || IsDigit(c) || c == ' '
  }

  /** `re.sub(r"[^a-z0-9 ]", "", s)`. */
  function KeepKeyChars(s: string): (r: string)
    ensures KeyText(r)
    ensures |r| <= |s|
  {
    if s == [] then []
    else (if IsKeyChar(s[0]) then [s[0]] else []) + KeepKeyChars(s[1..])
  }

  /** Drops the leading whitespace of `s`. */
  function StripLeft(s: string): (r: string)
    ensures |r| <= |s|
    ensures s != [] && IsSpace(s[0]) ==> |r| < |s|
  {
    if s != [] && IsSpace(s[0]) then StripLeft(s[1..]) else s
  }

  /** `StripLeft` removes exactly the maximal whitespace prefix. */
  lemma {:induction false} StripLeftRemovesSpacePrefix(s: string)
    ensures |StripLeft(s)| <= |s| && StripLeft(s) == s[|s| - |StripLeft(s)|..]
    ensures forall i :: 0 <= i < |s| - |StripLeft(s)| ==> IsSpace(s[i])
    ensures StripLeft(s) == [] || !IsSpace(StripLeft(s)[0])
  {
    if s != [] && IsSpace(s[0]) {
      StripLeftRemovesSpacePrefix(s[1..]);
    }
  }

  /** Drops the trailing whitespace of `s`. */
  function StripRight(s: string): string {
    if s != [] && IsSpace(s[|s| - 1]) then StripRight(s[..|s| - 1]) else s
  }

  /** `StripRight` removes exactly the maximal whitespace suffix. */
  lemma {:induction false} StripRightRemovesSpaceSuffix(s: string)
    ensures |StripRight(s)| <= |s| && StripRight(s) == s[..|StripRight(s)|]
    ensures forall i :: |StripRight(s)| <= i < |s| ==> IsSpace(s[i])
    ensures StripRight(s) == [] || !IsSpace(StripRight(s)[|StripRight(s)| - 1])
  {
    if s != [] && IsSpace(s[|s| - 1]) {
      StripRightRemovesSpaceSuffix(s[..|s| - 1]);
    }
  }

  /** `str.strip()`. */
  function Strip(s: string): string {
    StripRight(StripLeft(s))
  }

  /** The characters of `s` that are not whitespace, in order. */
  function Visible(s: string): string {
    if s == [] then [] else (if IsSpace(s[0]) then [] else [s[0]]) + Visible(s[1..])
  }

  /** No two adjacent whitespace characters. */
  predicate SingleSpaced(s: string) {
    forall i :: 0 <= i < |s| - 1 ==> !(IsSpace(s[i]) && IsSpace(s[i + 1]))
  }

  /** `re.sub(r"\s+", " ", s)`: every maximal whitespace run becomes one space. */
  function Collapse(s: string): string
    decreases |s|
  {
    if s == [] then []
    else if IsSpace(s[0]) then " " + Collapse(StripLeft(s))
    else [s[0]] + Collapse(s[1..])
  }

  /** A collapsed text is empty exactly when the input is, and starts with
      whitespace exactly when the input does. */
  lemma CollapseStart(s: string)
    ensures Collapse(s) != [] <==> s != []
    ensures Collapse(s) != [] ==> (IsSpace(Collapse(s)[0]) <==> IsSpace(s[0]))
  {
  }

  /** Collapsing leaves only single spaces as whitespace. */
  lemma {:induction false} CollapseSingleSpaced(s: string)
    ensures SingleSpaced(Collapse(s))
    ensures forall i :: 0 <= i < |Collapse(s)| ==> (IsSpace(Collapse(s)[i]) ==> Collapse(s)[i] == ' ')
    decreases |s|
  {
    if s != [] {
      if IsSpace(s[0]) {
        var rest := StripLeft(s);
        StripLeftRemovesSpacePrefix(s);
        CollapseSingleSpaced(rest);
        CollapseStart(rest);
        ConsKeepsSingleSpaced(' ', Collapse(rest));
      } else {
        CollapseSingleSpaced(s[1..]);
        ConsKeepsSingleSpaced(s[0], Collapse(s[1..]));
      }
    }
  }

  /** Putting a visible character, or a blank before a visible start, in
      front of a single-spaced text keeps it single-spaced. */
  lemma ConsKeepsSingleSpaced(c: char, r: string)
    requires SingleSpaced(r) && forall i :: 0 <= i < |r| ==> (IsSpace(r[i]) ==> r[i] == ' ')
    requires IsSpace(c) ==> c == ' ' && (r == [] || !IsSpace(r[0]))
    ensures SingleSpaced([c] + r)
    ensures forall i :: 0 <= i < |[c] + r| ==> (IsSpace(([c] + r)[i]) ==> ([c] + r)[i] == ' ')
  {
    var s := [c] + r;
    assert forall i :: 1 <= i < |s| ==> s[i] == r[i - 1];
  }

  /** Collapsing keeps every visible character, in order. */
  lemma {:induction false} CollapseKeepsVisible(s: string)
    ensures Visible(Collapse(s)) == Visible(s)
    decreases |s|
  {
    if s != [] {
      if IsSpace(s[0]) {
        var rest := StripLeft(s);
        StripLeftRemovesSpacePrefix(s);
        CollapseKeepsVisible(rest);
        VisibleOfSpaces(s, |s| - |rest|);
        var r := Collapse(rest);
        assert Collapse(s) == " " + r;
        assert Visible(" " + r) == Visible(r);
      } else {
        CollapseKeepsVisible(s[1..]);
        var r := Collapse(s[1..]);
        assert Collapse(s) == [s[0]] + r;
        assert Visible([s[0]] + r) == [s[0]] + Visible(r);
      }
    }
  }

  /** A whitespace prefix contributes nothing visible. */
  lemma {:induction false} VisibleOfSpaces(s: string, k: nat)
    requires k <= |s|
    requires forall i :: 0 <= i < k ==> IsSpace(s[i])
    ensures Visible(s) == Visible(s[k..])
    decreases k
  {
    if k > 0 {
      VisibleOfSpaces(s[1..], k - 1);
      assert s[1..][k - 1..] == s[k..];
    }
  }

  /** All characters of `s` are key characters. */
  predicate KeyText(s: string) {
    forall i :: 0 <= i < |s| ==> IsKeyChar(s[i])
  }

  lemma {:induction false} VisibleMember(s: string, i: nat)
    requires i < |s| && !IsSpace(s[i])
    ensures s[i] in Visible(s)
    decreases |s|
  {
    if i > 0 {
      VisibleMember(s[1..], i - 1);
    }
  }

  lemma {:induction false} VisibleSubset(s: string, c: char)
    requires c in Visible(s)
    ensures c in s
    decreases |s|
  {
    if s != [] && c !in (if IsSpace(s[0]) then [] else [s[0]]) {
      VisibleSubset(s[1..], c);
    }
  }

  /** Collapsing whitespace introduces no character other than a space. */
  lemma CollapseKeepsKeyText(s: string)
    requires KeyText(s)
    ensures KeyText(Collapse(s)) && SingleSpaced(Collapse(s))
  {
    CollapseSingleSpaced(s);
    CollapseKeepsVisible(s);
    var c := Collapse(s);
    forall i | 0 <= i < |c|
      ensures IsKeyChar(c[i])
    {
      if !IsSpace(c[i]) {
        VisibleMember(c, i);
        VisibleSubset(s, c[i]);
      }
    }
  }

  /** Any slice of a single-spaced key text is one. */
  lemma SliceKeepsShape(s: string, a: nat, b: nat)
    requires a <= b <= |s|
    requires KeyText(s) && SingleSpaced(s)
    ensures KeyText(s[a..b]) && SingleSpaced(s[a..b])
  {
    var t := s[a..b];
    assert forall i :: 0 <= i < |t| ==> t[i] == s[a + i];
  }

  /** Stripping a single-spaced key text leaves one. */
  lemma StripKeepsShape(s: string)
    requires KeyText(s) && SingleSpaced(s)
    ensures KeyText(Strip(s)) && SingleSpaced(Strip(s))
  {
    var left := StripLeft(s);
    StripLeftRemovesSpacePrefix(s);
    StripRightRemovesSpaceSuffix(left);
    SliceKeepsShape(s, |s| - |left|, |s|);
    assert left == s[|s| - |left|..|s|];
    SliceKeepsShape(left, 0, |StripRight(left)|);
    assert StripRight(left) == left[0..|StripRight(left)|];
  }

  /** A stripped text has no whitespace at either end. */
  lemma StripEnds(s: string)
    ensures Strip(s) == [] || (!IsSpace(Strip(s)[0]) && !IsSpace(Strip(s)[|Strip(s)| - 1]))
  {
    var left := StripLeft(s);
    var r := StripRight(left);
    StripLeftRemovesSpacePrefix(s);
    StripRightRemovesSpaceSuffix(left);
    assert r != [] ==> r[0] == left[0];
  }

  /** Passes 1 to 3: lowercase, drop listed whole words, keep key characters. */
  function Prepared(desc: string): (r: string)
    ensures KeyText(r)
  {
    KeepKeyChars(RemoveStopWords(Lower(desc)))
  }

  /** The comparison key of a description: only `a-z`, `0-9` and single
      spaces, with no space at either end. */
  function NormalizeDescription(desc: string): (r: string)
    ensures KeyText(r)
    ensures forall i :: 0 <= i < |r| - 1 ==> !(r[i] == ' ' && r[i + 1] == ' ')
    ensures r == [] || (r[0] != ' ' && r[|r| - 1] != ' ')
  {
    var kept := Prepared(desc);
    CollapseKeepsKeyText(kept);
    StripKeepsShape(Collapse(kept));
    StripEnds(Collapse(kept));
    Strip(Collapse(kept))
  }

  // ---------------------------------------------------------------------
  // Every pass is local: it distributes over a split just before a space.

  lemma {:induction false} LowerAppend(a: string, b: string)
    ensures Lower(a + b) == Lower(a) + Lower(b)
  {
  }

  lemma {:induction false} KeepKeyCharsAppend(a: string, b: string)
    ensures KeepKeyChars(a + b) == KeepKeyChars(a) + KeepKeyChars(b)
    decreases |a|
  {
    if a != [] {
      assert (a + b)[1..] == a[1..] + b;
      KeepKeyCharsAppend(a[1..], b);
    } else {
      assert a + b == b;
    }
  }

  /** Word runs do not cross a split at a non-word character. */
  predicate SplitsAtNonWord(a: string, b: string) {
    a == [] || b == [] || !IsWordChar(a[|a| - 1]) || !IsWordChar(b[0])
  }

  lemma {:induction false} RunLenPrefix(a: string, b: string, i: nat)
    requires i < |a| && SplitsAtNonWord(a, b)
    ensures RunLen(a + b, i) == RunLen(a, i)
    decreases |a| - i
  {
    if IsWordChar(a[i]) && i + 1 < |a| {
      RunLenPrefix(a, b, i + 1);
    }
  }

  /** Whole-word removal distributes over a split at a non-word character. */
  lemma {:induction false} DropWordsSplit(a: string, b: string, ws: seq<string>)
    requires SplitsAtNonWord(a, b)
    ensures DropWords(a + b, ws) == DropWords(a, ws) + DropWords(b, ws)
    decreases |a|
  {
    var ab := a + b;
    if a == [] {
      assert ab == b;
    } else if !IsWordChar(a[0]) {
      assert ab[1..] == a[1..] + b;
      DropWordsSplit(a[1..], b, ws);
    } else {
      RunLenPrefix(a, b, 0);
      var n := RunLen(a, 0);
      assert ab[0..n] == a[0..n];
      assert KeptRun(ab, 0, ws) == KeptRun(a, 0, ws);
      assert ab[n..] == a[n..] + b;
      DropWordsSplit(a[n..], b, ws);
    }
  }

  /** Removing listed words from two texts split at a non-word character is
      the same as removing them from each part. */
  lemma RemoveStopWordsSplit(a: string, b: string)
    requires SplitsAtNonWord(a, b)
    ensures RemoveStopWords(a + b) == RemoveStopWords(a) + RemoveStopWords(b)
  {
    RemoveStopWordsIsWholeWord(a + b);
    RemoveStopWordsIsWholeWord(a);
    RemoveStopWordsIsWholeWord(b);
    DropWordsSplit(a, b, StopWords);
  }

  /** Passes 1 to 3 distribute over a split at a non-word character. */
  lemma PreparedSplit(a: string, b: string)
    requires SplitsAtNonWord(a, b)
    ensures Prepared(a + b) == Prepared(a) + Prepared(b)
  {
    LowerAppend(a, b);
    assert SplitsAtNonWord(Lower(a), Lower(b));
    RemoveStopWordsSplit(Lower(a), Lower(b));
    KeepKeyCharsAppend(RemoveStopWords(Lower(a)), RemoveStopWords(Lower(b)));
  }

  lemma {:induction false} StripLeftAppend(a: string, b: string)
    requires a != [] && !IsSpace(a[|a| - 1])
    ensures StripLeft(a + b) == StripLeft(a) + b
    decreases |a|
  {
    if IsSpace(a[0]) {
      assert (a + b)[1..] == a[1..] + b;
      StripLeftAppend(a[1..], b);
    }
  }

  /** Collapsing distributes over a split after a non-space character. */
  lemma {:induction false} CollapseAppend(a: string, b: string)
    requires a == [] || !IsSpace(a[|a| - 1])
    ensures Collapse(a + b) == Collapse(a) + Collapse(b)
    decreases |a|
  {
    if a == [] {
      assert a + b == b;
    } else if IsSpace(a[0]) {
      var rest := StripLeft(a);
      CollapseAppendSpace(a, b);
      CollapseAppend(rest, b);
    } else {
      CollapseAppendVisible(a, b);
      CollapseAppend(a[1..], b);
    }
  }

  lemma CollapseAppendSpace(a: string, b: string)
    requires a != [] && IsSpace(a[0]) && !IsSpace(a[|a| - 1])
    ensures StripLeft(a) != [] && !IsSpace(StripLeft(a)[|StripLeft(a)| - 1]) && |StripLeft(a)| < |a|
    ensures Collapse(StripLeft(a) + b) == Collapse(StripLeft(a)) + Collapse(b) ==>
      Collapse(a + b) == Collapse(a) + Collapse(b)
  {
    StripLeftAppend(a, b);
    StripLeftRemovesSpacePrefix(a);
    var rest := StripLeft(a);
    assert Collapse(a + b) == " " + Collapse(rest + b);
    assert Collapse(a) == " " + Collapse(rest);
    assert " " + (Collapse(rest) + Collapse(b)) == (" " + Collapse(rest)) + Collapse(b);
  }

  lemma CollapseAppendVisible(a: string, b: string)
    requires a != [] && !IsSpace(a[0]) && !IsSpace(a[|a| - 1])
    ensures a[1..] == [] || !IsSpace(a[1..][|a[1..]| - 1])
    ensures Collapse(a[1..] + b) == Collapse(a[1..]) + Collapse(b) ==>
      Collapse(a + b) == Collapse(a) + Collapse(b)
  {
    assert (a + b)[1..] == a[1..] + b;
    assert Collapse(a + b) == [a[0]] + Collapse(a[1..] + b);
    assert Collapse(a) == [a[0]] + Collapse(a[1..]);
    assert [a[0]] + (Collapse(a[1..]) + Collapse(b)) == ([a[0]] + Collapse(a[1..])) + Collapse(b);
  }

  // ---------------------------------------------------------------------
  // What the key keeps and what it ignores

  /** A non-empty run of word characters. */
  predicate IsWord(w: string) {
    w != [] && forall k :: 0 <= k < |w| ==> IsWordChar(w[k])
  }

  lemma DropWordsOfWord(w: string, ws: seq<string>)
    requires IsWord(w)
    ensures DropWords(w, ws) == if w in ws then "" else w
  {
    RunLenExact(w, 0, |w|);
    assert w[0..|w|] == w;
    assert w[|w|..] == [];
  }

  lemma {:induction false} KeepKeyCharsOfKeyText(s: string)
    requires KeyText(s)
    ensures KeepKeyChars(s) == s
    decreases |s|
  {
    if s != [] {
      KeepKeyCharsOfKeyText(s[1..]);
    }
  }

  /** A single word is dropped when listed and otherwise only loses its
      non-key characters. */
  lemma PreparedOfWord(w: string)
    requires IsWord(w)
    ensures Prepared(w) == if Lower(w) in StopWords then "" else KeepKeyChars(Lower(w))
  {
    RemoveStopWordsIsWholeWord(Lower(w));
    DropWordsOfWord(Lower(w), StopWords);
  }

  /** A text without whitespace other than single inner spaces is left as it
      is by collapsing. */
  lemma {:induction false} CollapseOfSingleSpacedKey(s: string)
    requires KeyText(s) && SingleSpaced(s)
    ensures Collapse(s) == s
    decreases |s|
  {
    if s != [] {
      SliceKeepsShape(s, 1, |s|);
      CollapseOfSingleSpacedKey(s[1..]);
      if IsSpace(s[0]) {
        assert StripLeft(s) == s[1..];
      }
    }
  }

  lemma LowerOfKeyText(s: string)
    requires KeyText(s)
    ensures Lower(s) == s
  {
  }

  lemma KeyCharNotSpace(c: char)
    requires IsKeyChar(c) && c != ' '
    ensures !IsSpace(c)
  {
  }

  /** A text with no whitespace at either end is left as it is by `Strip`. */
  lemma StripOfTrimmed(s: string)
    requires s == [] || (!IsSpace(s[0]) && !IsSpace(s[|s| - 1]))
    ensures Strip(s) == s
  {
    assert StripLeft(s) == s;
    assert StripRight(s) == s;
  }

  /** Passes 1 to 3 change nothing in a key text without listed words. */
  lemma PreparedOfPlainKey(s: string)
    requires KeyText(s) && DropWords(s, StopWords) == s
    ensures Prepared(s) == s
  {
    LowerOfKeyText(s);
    RemoveStopWordsIsWholeWord(s);
    KeepKeyCharsOfKeyText(s);
  }

  /** A text that already has the shape of a key and contains no listed word
      is its own key. */
  lemma NormalizeFixedPoint(s: string)
    requires KeyText(s) && SingleSpaced(s) && (s == [] || (s[0] != ' ' && s[|s| - 1] != ' '))
    requires DropWords(s, StopWords) == s
    ensures NormalizeDescription(s) == s
  {
    assert Prepared(s) == s by {
      PreparedOfPlainKey(s);
    }
    assert Collapse(s) == s by {
      CollapseOfSingleSpacedKey(s);
    }
    assert Strip(s) == s by {
      if s != [] {
        KeyCharNotSpace(s[0]);
        KeyCharNotSpace(s[|s| - 1]);
      }
      StripOfTrimmed(s);
    }
  }

  /** A listed word, in any letter case, followed by a non-word character
      or by nothing, does not contribute to the key: "Fix the leaking tap"
      and "Fixed the leaking tap" have the key of " the leaking tap". */
  lemma ListedWordIgnored(w: string, t: string)
    requires IsWord(w) && Lower(w) in StopWords
    requires t == [] || !IsWordChar(t[0])
    requires IsAscii(t)
    ensures NormalizeDescription(w + t) == NormalizeDescription(t)
  {
    PreparedSplit(w, t);
    PreparedOfWord(w);
    assert Prepared(w + t) == Prepared(t);
  }

  /** A single non-word character is kept by passes 1 and 2. */
  lemma RemoveStopWordsOfNonWord(c: char)
    requires !IsWordChar(c)
    ensures RemoveStopWords(Lower([c])) == [c]
  {
    assert Lower([c]) == [c];
    RemoveStopWordsIsWholeWord([c]);
    assert DropWords([c], StopWords) == [c];
  }

  /** A trailing character that is neither a word character nor a key
      character, such as "!", does not contribute to the key. */
  lemma TrailingPunctuationIgnored(s: string, c: char)
    requires !IsWordChar(c) && !IsKeyChar(c)
    requires IsAscii(s) && IsAsciiChar(c)
    ensures NormalizeDescription(s + [c]) == NormalizeDescription(s)
  {
    PreparedSplit(s, [c]);
    RemoveStopWordsOfNonWord(c);
    assert Prepared(s + [c]) == Prepared(s);
  }

  /** Leading whitespace does not contribute to the key. */
  lemma LeadingSpaceIgnored(c: char, t: string)
    requires IsSpace(c) && IsAscii(t)
    ensures NormalizeDescription([c] + t) == NormalizeDescription(t)
  {
    PreparedSplit([c], t);
    RemoveStopWordsOfNonWord(c);
    var p := Prepared(t);
    var k := KeepKeyChars([c]);
    assert Prepared([c] + t) == k + p;
    CollapseAfterSpaces(k, p);
  }

  /** The three together: "Fix the leaking tap!" and "Fixed the leaking tap."
      have the key of "the leaking tap", and so does any listed word, a
      space, a text and a closing punctuation mark. */
  lemma ListedWordAndPunctuationIgnored(w: string, c: char, t: string, p: char)
    requires IsWord(w) && Lower(w) in StopWords
    requires IsSpace(c) && !IsWordChar(p) && !IsKeyChar(p)
    requires IsAscii(t) && IsAsciiChar(p)
    ensures NormalizeDescription(w + [c] + t + [p]) == NormalizeDescription(t)
  {
    var rest := [c] + (t + [p]);
    assert w + [c] + t + [p] == w + rest;
    assert IsAscii(t + [p]) && IsAscii(rest) by {
      assert forall i :: 0 <= i < |t + [p]| ==> (t + [p])[i] == if i < |t| then t[i] else p;
      assert forall i :: 0 <= i < |rest| ==> rest[i] == if i == 0 then c else (t + [p])[i - 1];
    }
    calc {
      NormalizeDescription(w + rest);
      { assert !IsWordChar(rest[0]);
        ListedWordIgnored(w, rest); }
      NormalizeDescription(rest);
      { LeadingSpaceIgnored(c, t + [p]); }
      NormalizeDescription(t + [p]);
      { TrailingPunctuationIgnored(t, p); }
      NormalizeDescription(t);
    }
  }

  /** Whitespace before a text only adds whitespace before its collapsed
      form, which `Strip` removes. */
  lemma CollapseAfterSpaces(k: string, p: string)
    requires forall i :: 0 <= i < |k| ==> IsSpace(k[i])
    ensures Strip(Collapse(k + p)) == Strip(Collapse(p))
  {
    if k == [] {
      assert k + p == p;
    } else {
      var q := StripLeft(p);
      StripLeftOverSpaces(k, p);
      assert (k + p)[0] == k[0];
      assert Collapse(k + p) == " " + Collapse(q);
      StripLeftPastSpace(Collapse(q));
      if p != [] && IsSpace(p[0]) {
        assert Collapse(p) == " " + Collapse(q);
        StripLeftPastSpace(Collapse(q));
      } else {
        assert q == p;
      }
    }
  }

  /** A whitespace run at the start becomes exactly one space, whatever its
      length, before the collapsed rest. */
  lemma CollapseLeadingRun(k: string, b: string)
    requires k != [] && forall i :: 0 <= i < |k| ==> IsSpace(k[i])
    requires b == [] || !IsSpace(b[0])
    ensures Collapse(k + b) == " " + Collapse(b)
  {
    assert (k + b)[0] == k[0];
    StripLeftOverSpaces(k, b);
  }

  /** `re.sub(r"\s+", " ", …)` turns each maximal whitespace run between two
      stretches of text into exactly one space: words stay separated, by a
      single space, and nothing else between them changes. */
  lemma CollapseRunBetween(a: string, k: string, b: string)
    requires a == [] || !IsSpace(a[|a| - 1])
    requires k != [] && forall i :: 0 <= i < |k| ==> IsSpace(k[i])
    requires b == [] || !IsSpace(b[0])
    ensures Collapse(a + k + b) == Collapse(a) + " " + Collapse(b)
  {
    CollapseLeadingRun(k, b);
    CollapseBeforeSpaced(a, k + b, Collapse(b));
    AppendAssoc(a, k, b);
  }

  /** Text ending in a non-space, then text whose collapsed form starts with
      the space before `cb`. */
  lemma CollapseBeforeSpaced(a: string, r: string, cb: string)
    requires a == [] || !IsSpace(a[|a| - 1])
    requires Collapse(r) == " " + cb
    ensures Collapse(a + r) == Collapse(a) + " " + cb
  {
    CollapseAppend(a, r);
  }

  lemma AppendAssoc(a: string, k: string, b: string)
    ensures a + k + b == a + (k + b)
  {
  }



  lemma {:induction false} StripLeftOverSpaces(k: string, p: string)
    requires forall i :: 0 <= i < |k| ==> IsSpace(k[i])
    ensures StripLeft(k + p) == StripLeft(p)
    decreases |k|
  {
    if k == [] {
      assert k + p == p;
    } else {
      assert (k + p)[1..] == k[1..] + p;
      StripLeftOverSpaces(k[1..], p);
    }
  }

  lemma StripLeftPastSpace(r: string)
    ensures Strip(" " + r) == Strip(r)
  {
    assert (" " + r)[1..] == r;
  }

  /** Only whole words are removed: a word that is not listed, such as
      "fixing" or "fix2", is kept (lowercased). */
  lemma UnlistedWordKept(w: string)
    requires IsWord(w) && Lower(w) !in StopWords && KeyText(Lower(w))
    ensures NormalizeDescription(w) == Lower(w)
  {
    var l := Lower(w);
    assert Prepared(w) == l by {
      PreparedOfWord(w);
      KeepKeyCharsOfKeyText(l);
    }
    assert forall i :: 0 <= i < |l| ==> !IsSpace(l[i]) by {
      forall i | 0 <= i < |l|
        ensures !IsSpace(l[i])
      {
        assert IsWordChar(w[i]);
      }
    }
    assert Collapse(l) == l by {
      CollapseOfSingleSpacedKey(l);
    }
    StripOfTrimmed(l);
  }

  /** A listed word is a lowercase word. */
  lemma ListedIsLowerWord(l: string, ws: seq<string>)
    requires LowerWords(ws) && l in ws
    ensures IsWord(l) && KeyText(l) && SingleSpaced(l) && Lower(l) == l
  {
    var k :| 0 <= k < |ws| && ws[k] == l;
    assert AllLowerLetters(ws[k]);
    LowerOfKeyText(l);
  }

  /** Attaching an underscore to a listed word makes a word that is not listed. */
  lemma UnderscoreUnlisted(l: string, ws: seq<string>)
    requires LowerWords(ws)
    ensures l + "_" !in ws
  {
    var u := l + "_";
    assert u[|l|] == '_';
    forall k | 0 <= k < |ws|
      ensures ws[k] != u
    {
      if |ws[k]| == |u| {
        assert !IsLowerLetter(u[|l|]);
      }
    }
  }

  /** Passes 1 to 3 turn a listed word with an underscore attached into the
      lowercased word. */
  lemma PreparedOfUnderscored(w: string)
    requires IsWord(w) && Lower(w) in StopWords
    ensures Prepared(w + "_") == Lower(w)
  {
    var l := Lower(w);
    var u := w + "_";
    assert KeyText(l) by {
      StopWordsAreLowerWords();
      ListedIsLowerWord(l, StopWords);
    }
    assert Lower(u) == l + "_" by {
      LowerAppend(w, "_");
    }
    assert Lower(u) !in StopWords by {
      StopWordsAreLowerWords();
      UnderscoreUnlisted(l, StopWords);
    }
    assert Prepared(u) == KeepKeyChars(l + "_") by {
      assert IsWord(u);
      PreparedOfWord(u);
    }
    assert KeepKeyChars(l + "_") == l by {
      KeepKeyCharsAppend(l, "_");
      KeepKeyCharsOfKeyText(l);
    }
  }

  /** Normalising is not idempotent: a listed word with an underscore
      attached, such as "fix_", is kept as "fix" because the underscore is a
      word character when the listed words are removed, but the key "fix"
      itself normalises to the empty key. */
  lemma NotIdempotent(w: string)
    requires IsWord(w) && Lower(w) in StopWords
    ensures NormalizeDescription(w + "_") == Lower(w)
    ensures NormalizeDescription(Lower(w)) == ""
    ensures NormalizeDescription(NormalizeDescription(w + "_")) != NormalizeDescription(w + "_")
  {
    var l := Lower(w);
    StopWordsAreLowerWords();
    ListedIsLowerWord(l, StopWords);
    PreparedOfUnderscored(w);
    CollapseOfSingleSpacedKey(l);
    StripOfTrimmed(l);
    PreparedOfWord(l);
  }
}

=== FILE: router.dfy ===
/** The webhook of the maintenance bot: each intent extracted from a chat
    message is matched against the table by normalised description and
    routed to an insert, a completion, a rejection or a read-only report,
    and the replies of the batch are sent back as one message. */
module Router {
  import opened Wrappers
  import opened Text
  import opened Json
  import opened Normalizer
  import opened Db
  import opened Utils
  import opened Telegram
  import opened Batch

  datatype Kind = NewTask | CompletedTask | Query | Unknown

  /** One entry of the `tasks` list the language model extracts. */
  datatype Intent = Intent(kind: Kind, description: Option<string>, property: Option<string>, cost: Option<nat>)


  /** What `desc.lower()` raises inside `normalize_description` or a query
      when the intent has no description. */
  const NoDescription: string := "'NoneType' object has no attribute 'lower'"

  // ---------------------------------------------------------------------
  // Matching
  //
  // The matching and the handlers take the key function `norm` as a
  // parameter; the webhook passes `NormalizeDescription`, so the decision
  // lemmas below hold for `normalize_description` and for any other key.

  predicate IsMatch(t: Task, key: string, norm: string -> string) {
    norm(t.description) == key
  }

  /** `next((t for t in cands if normalize_description(t['description']) == key), None)`,
      with `norm` in place of `normalize_description`. */
  function FindMatch(cands: seq<Task>, key: string, norm: string -> string): Option<Task> {
    FindFirst(cands, (t: Task) => IsMatch(t, key, norm))
  }

  /** The match is the first candidate whose key equals `key`, and there is
      none exactly when no candidate's key does. */
  lemma FindMatchIsFirst(cands: seq<Task>, key: string, norm: string -> string)
    ensures FindMatch(cands, key, norm).None? <==> forall k :: 0 <= k < |cands| ==> !IsMatch(cands[k], key, norm)
    ensures FindMatch(cands, key, norm).Some? ==>
      exists k :: 0 <= k < |cands| && cands[k] == FindMatch(cands, key, norm).value && IsMatch(cands[k], key, norm)
        && forall j :: 0 <= j < k ==> !IsMatch(cands[j], key, norm)
  {
    FindFirstIsFirst(cands, (t: Task) => IsMatch(t, key, norm));
  }

  /** A record of the table that `get_tasks(status, property)` lists and
      whose normalised description is `key`. */
  predicate HasMatchIn(db: Store, status: Status, property: Option<string>, key: string, norm: string -> string)
    requires db.Online?
  {
    exists t :: t in db.tasks && Selected(t, Some(status), property) && IsMatch(t, key, norm)
  }

  /** The candidates the webhook reads for an intent. */
  function Candidates(db: Store, status: Status, property: Option<string>): seq<Task>
    requires db.Online?
  {
    GetTasks(db, Some(status), property).value
  }

  /** Searching the listed candidates finds a record exactly when the table
      has a matching record, and what it finds is one. */
  lemma MatchInTable(db: Store, status: Status, property: Option<string>, key: string, norm: string -> string)
    requires db.Online?
    ensures FindMatch(Candidates(db, status, property), key, norm).Some? <==> HasMatchIn(db, status, property, key, norm)
    ensures FindMatch(Candidates(db, status, property), key, norm).Some? ==>
      var m := FindMatch(Candidates(db, status, property), key, norm).value;
      m in db.tasks && Selected(m, Some(status), property) && IsMatch(m, key, norm)
  {
    var cands := Candidates(db, status, property);
    FindMatchIsFirst(cands, key, norm);
    if HasMatchIn(db, status, property, key, norm) {
      var t :| t in db.tasks && Selected(t, Some(status), property) && IsMatch(t, key, norm);
      assert t in cands;
      var k :| 0 <= k < |cands| && cands[k] == t;
    }
    if FindMatch(cands, key, norm).Some? {
      var k :| 0 <= k < |cands| && cands[k] == FindMatch(cands, key, norm).value && IsMatch(cands[k], key, norm)
        && forall j :: 0 <= j < k ==> !IsMatch(cands[j], key, norm);
      assert cands[k] in cands;
    }
  }

  // ---------------------------------------------------------------------
  // Reply lines

  function DuplicateReply(desc: string, p: Option<string>): string {
    "Duplicate: '" + desc + "' for " + ShowOption(p) + " already pending."
  }

  function AlreadyCompletedReply(desc: string, p: Option<string>): string {
    "Task '" + desc + "' for " + ShowOption(p) + " is already completed."
  }

  function AddedReply(desc: string, p: Option<string>, c: Option<nat>): string {
    "Added: '" + desc + "' for " + ShowOption(p) + " (cost: " + ShowCost(c) + ")"
  }

  function MarkedReply(desc: string, p: Option<string>): string {
    "Marked completed: '" + desc + "' for " + ShowOption(p)
  }

  function CouldNotMarkReply(desc: string, p: Option<string>): string {
    "Could not mark as completed: '" + desc + "' for " + ShowOption(p)
  }

  function AddedCompletedReply(desc: string, p: Option<string>, c: Option<nat>): string {
    "Added and marked completed: '" + desc + "' for " + ShowOption(p) + " (cost: " + ShowCost(c) + ")"
  }

  // ---------------------------------------------------------------------
  // new_task and completed_task

  /** The record a `new_task` intent inserts. */
  function NewRecord(it: Intent, userId: Value): Task
    requires it.description.Some?
  {
    Task(userId, it.description.value, it.property, it.cost, Pending, None)
  }

  /** The record a `completed_task` intent inserts when nothing matches. */
  function CompletedRecord(it: Intent, userId: Value, now: Timestamp): Task
    requires it.description.Some?
  {
    Task(userId, it.description.value, it.property, it.cost, Completed, Some(now))
  }

  /** The `new_task` branch: both listings are read before the description
      is normalised, so a missing table is reported before a missing
      description. */
  function HandleNewTask(db: Store, it: Intent, userId: Value, norm: string -> string): Result<Step<Store>> {
    if db.Offline? then Err(NotInitialized)
    else if it.description.None? then Err(NoDescription)
    else
      var desc := it.description.value;
      var key := norm(desc);
      if FindMatch(Candidates(db, Pending, it.property), key, norm).Some? then
        Ok(Step(db, DuplicateReply(desc, it.property)))
      else if FindMatch(Candidates(db, Completed, it.property), key, norm).Some? then
        Ok(Step(db, AlreadyCompletedReply(desc, it.property)))
      else
        Ok(Step(AddTask(db, NewRecord(it, userId)).value, AddedReply(desc, it.property, it.cost)))
  }

  /** The `completed_task` branch. A pending match is completed through an
      update keyed on the matched record's own description and the intent's
      property. */
  function HandleCompletedTask(db: Store, it: Intent, userId: Value, now: Timestamp, norm: string -> string): Result<Step<Store>> {
    if db.Offline? then Err(NotInitialized)
    else if it.description.None? then Err(NoDescription)
    else
      var desc := it.description.value;
      var key := norm(desc);
      match FindMatch(Candidates(db, Pending, it.property), key, norm)
      case Some(m) =>
        var (after, n) := CompleteTask(db, m.description, it.property, now).value;
        Ok(Step(after, if n > 0 then MarkedReply(m.description, it.property)
                       else CouldNotMarkReply(m.description, it.property)))
      case None =>
        if FindMatch(Candidates(db, Completed, it.property), key, norm).Some? then
          Ok(Step(db, AlreadyCompletedReply(desc, it.property)))
        else
          Ok(Step(AddTask(db, CompletedRecord(it, userId, now)).value,
                  AddedCompletedReply(desc, it.property, it.cost)))
  }

  // ---------------------------------------------------------------------
  // query

  const PendingWords: seq<string> := ["pending", "yet", "to be done", "incomplete", "open"]
  const CompletedWords: seq<string> := ["completed", "done", "finished", "closed"]

  /** `any(word in q for word in words)`. */
  predicate ContainsAny(q: string, words: seq<string>) {
    exists k :: 0 <= k < |words| && Contains(q, words[k])
  }

  function PendingLine(t: Task): string {
    "- " + t.description + " (" + ShowOption(t.property) + ") [cost: " + ShowCost(t.cost) + "]"
  }

  function CompletedLine(t: Task): string {
    PendingLine(t) + " on " + ShowTime(t.completedAt)
  }

  function CentralLine(t: Task): string {
    "- " + t.description + " (cost: " + ShowCost(t.cost) + ")"
  }

  /** A listing: the empty text when there are no records, otherwise the
      title followed by one line per record. */
  function Listing(title: string, empty: string, ts: seq<Task>, line: Task -> string): string {
    if ts == [] then empty
    else title + "\n" + Join(seq(|ts|, k requires 0 <= k < |ts| => line(ts[k])), "\n")
  }

  function PendingReport(db: Store): string
    requires db.Online?
  {
    Listing("Pending tasks:", "No pending tasks.", GetTasks(db, Some(Pending), None).value, PendingLine)
  }

  function CompletedReport(db: Store): string
    requires db.Online?
  {
    Listing("Completed tasks:", "No completed tasks.", GetTasks(db, Some(Completed), None).value, CompletedLine)
  }

  function CentralReport(db: Store): string
    requires db.Online?
  {
    Listing("Completed for Central:", "No completed tasks for Central.",
      GetTasks(db, Some(Completed), Some("Central")).value, CentralLine)
  }

  /** The `query` branch: the lowercased description is tested against the
      keyword lists in a fixed order; only the chosen report reads the table. */
  function HandleQuery(db: Store, it: Intent): Result<Step<Store>> {
    if it.description.None? then Err(NoDescription)
    else
      var q := Lower(it.description.value);
      if ContainsAny(q, PendingWords) then
        if db.Offline? then Err(NotInitialized) else Ok(Step(db, PendingReport(db)))
      else if ContainsAny(q, CompletedWords) then
        if db.Offline? then Err(NotInitialized) else Ok(Step(db, CompletedReport(db)))
      else if Contains(q, "central") then
        if db.Offline? then Err(NotInitialized) else Ok(Step(db, CentralReport(db)))
      else
        Ok(Step(db, "Query not recognized."))
  }

  /** One intent of the batch. Only `new_task` and `completed_task` write;
      an unknown type touches nothing, not even a missing table. */
  function HandleIntent(db: Store, it: Intent, userId: Value, now: Timestamp, norm: string -> string): (r: Result<Step<Store>>)
    ensures it.kind == Unknown ==> r == Ok(Step(db, "Task type not recognized."))
    ensures it.kind == Query && r.Ok? ==> r.value.store == db
    ensures (it.kind == NewTask || it.kind == CompletedTask) ==>
      (db.Offline? ==> r == Err(NotInitialized)) && (db.Online? && it.description.None? ==> r == Err(NoDescription))
    ensures r.Err? ==> r.error == NotInitialized || r.error == NoDescription
    ensures r.Ok? ==> r.value.store.Online? == db.Online?
  {
    match it.kind
    case NewTask => HandleNewTask(db, it, userId, norm)
    case CompletedTask => HandleCompletedTask(db, it, userId, now, norm)
    case Query => HandleQuery(db, it)
    case Unknown => Ok(Step(db, "Task type not recognized."))
  }

  // ---------------------------------------------------------------------
  // The batch

  /** Each intent of a message is handled with the sender's id and the time
      the message is processed. */
  function Handler(userId: Value, now: Timestamp, norm: string -> string): (Store, Intent) -> Result<Step<Store>> {
    (db: Store, it: Intent) => HandleIntent(db, it, userId, now, norm)
  }

  /** The `for task in tasks` loop inside the `try`. */
  function RunIntents(db: Store, its: seq<Intent>, userId: Value, now: Timestamp, norm: string -> string): Run<Store> {
    Fold(db, its, Handler(userId, now, norm))
  }

  /** The message sent back: the failure, or the reply lines, or the fallback
      for an empty batch. */
  function ReplyText(run: Run<Store>): string {
    if run.error.Some? then "Error: " + run.error.value
    else if run.replies == [] then "No tasks found."
    else Join(run.replies, "\n")
  }

  /** `send_message(chat_id, text, reply_to_message_id=message_id)`. */
  datatype Reply = Reply(chat: Value, text: string, replyTo: Option<Value>)

  /** `webhook()`: the table afterwards and the message sent, if any. A
      malformed update raises before the `try` and sends nothing. The
      language model is the parameter `parse`. */
  function Webhook(db: Store, update: Value, parse: Value -> Result<seq<Intent>>, now: Timestamp)
    : (r: Result<(Store, Option<Reply>)>)
    ensures r.Err? <==> ExtractMessageInfo(update).Err?
    ensures r.Ok? ==>
      (r.value.1.None? <==>
         ExtractMessageInfo(update).value.None? || !Truthy(ExtractMessageInfo(update).value.value.text))
    ensures r.Ok? && r.value.1.None? ==> r.value.0 == db
    ensures r.Ok? && r.value.1.Some? ==>
      var i := ExtractMessageInfo(update).value.value;
      && r.value.1.value.chat == i.chatId
      && (r.value.1.value.replyTo.Some? <==> Truthy(i.messageId))
      && (r.value.1.value.replyTo.Some? ==> r.value.1.value.replyTo.value == i.messageId)
      && (parse(i.text).Err? ==> r.value.0 == db && r.value.1.value.text == "Error: " + parse(i.text).error)
      && (parse(i.text) == Ok([]) ==> r.value.0 == db && r.value.1.value.text == "No tasks found.")
      && (parse(i.text).Ok? ==>
            var run := RunIntents(db, parse(i.text).value, i.userId, now, NormalizeDescription);
            r.value.0 == run.store && r.value.1.value.text == ReplyText(run))
  {
    var info :- ExtractMessageInfo(update);
    if info.None? || !Truthy(info.value.text) then Ok((db, None))
    else
      var i := info.value;
      var replyTo := if Truthy(i.messageId) then Some(i.messageId) else None;
      match parse(i.text)
      case Err(e) => Ok((db, Some(Reply(i.chatId, "Error: " + e, replyTo))))
      case Ok(intents) =>
        var run := RunIntents(db, intents, i.userId, now, NormalizeDescription);
        Ok((run.store, Some(Reply(i.chatId, ReplyText(run), replyTo))))
  }

  // ---------------------------------------------------------------------
  // The decision tables

  /** `new_task`: a pending match rejects as a duplicate, else a completed
      match rejects as already completed, else exactly one pending record
      with the intent's description, property and cost is appended. */
  lemma NewTaskDecision(db: Store, it: Intent, userId: Value, now: Timestamp, norm: string -> string)
    requires db.Online? && it.kind == NewTask && it.description.Some?
    ensures var key := norm(it.description.value);
      var desc := it.description.value;
      var r := HandleIntent(db, it, userId, now, norm);
      && r.Ok?
      && (HasMatchIn(db, Pending, it.property, key, norm) ==>
            r.value == Step(db, DuplicateReply(desc, it.property)))
      && (!HasMatchIn(db, Pending, it.property, key, norm) && HasMatchIn(db, Completed, it.property, key, norm) ==>
            r.value == Step(db, AlreadyCompletedReply(desc, it.property)))
      && (!HasMatchIn(db, Pending, it.property, key, norm) && !HasMatchIn(db, Completed, it.property, key, norm) ==>
            r.value == Step(Online(db.tasks + [Task(userId, desc, it.property, it.cost, Pending, None)]),
                            AddedReply(desc, it.property, it.cost)))
  {
    var key := norm(it.description.value);
    MatchInTable(db, Pending, it.property, key, norm);
    MatchInTable(db, Completed, it.property, key, norm);
  }

  /** `completed_task`: the first pending match (in table order) is completed
      by an update keyed on its own description and the intent's property,
      replying "Marked completed" exactly when the update finds a row; else a
      completed match rejects; else one completed record stamped `now` is
      appended. */
  lemma CompletedTaskDecision(db: Store, it: Intent, userId: Value, now: Timestamp, norm: string -> string)
    requires db.Online? && it.kind == CompletedTask && it.description.Some?
    ensures var key := norm(it.description.value);
      var desc := it.description.value;
      var r := HandleIntent(db, it, userId, now, norm);
      && r.Ok?
      && (HasMatchIn(db, Pending, it.property, key, norm) ==>
            && FindMatch(Candidates(db, Pending, it.property), key, norm).Some?
            && var m := FindMatch(Candidates(db, Pending, it.property), key, norm).value;
            var (after, n) := CompleteTask(db, m.description, it.property, now).value;
            && m in db.tasks && Selected(m, Some(Pending), it.property) && IsMatch(m, key, norm)
            && r.value == Step(after, if n > 0 then MarkedReply(m.description, it.property)
                                      else CouldNotMarkReply(m.description, it.property)))
      && (!HasMatchIn(db, Pending, it.property, key, norm) && HasMatchIn(db, Completed, it.property, key, norm) ==>
            r.value == Step(db, AlreadyCompletedReply(desc, it.property)))
      && (!HasMatchIn(db, Pending, it.property, key, norm) && !HasMatchIn(db, Completed, it.property, key, norm) ==>
            r.value == Step(Online(db.tasks + [Task(userId, desc, it.property, it.cost, Completed, Some(now))]),
                            AddedCompletedReply(desc, it.property, it.cost)))
  {
    var key := norm(it.description.value);
    MatchInTable(db, Pending, it.property, key, norm);
    MatchInTable(db, Completed, it.property, key, norm);
  }

  /** With a non-empty property, completing a pending match always succeeds:
      the matched record itself satisfies the update's exact filter. */
  lemma ScopedCompletionMarks(db: Store, it: Intent, userId: Value, now: Timestamp, norm: string -> string)
    requires db.Online? && it.kind == CompletedTask && it.description.Some? && Scoped(it.property)
    requires HasMatchIn(db, Pending, it.property, norm(it.description.value), norm)
    ensures exists m ::
      && m in db.tasks && m.status == Pending && IsMatch(m, norm(it.description.value), norm)
      && HandleIntent(db, it, userId, now, norm) ==
         Ok(Step(CompleteTask(db, m.description, it.property, now).value.0, MarkedReply(m.description, it.property)))
  {
    var key := norm(it.description.value);
    CompletedTaskDecision(db, it, userId, now, norm);
    var m := FindMatch(Candidates(db, Pending, it.property), key, norm).value;
    var (after, n) := CompleteTask(db, m.description, it.property, now).value;
    assert n > 0 by {
      var k :| 0 <= k < |db.tasks| && db.tasks[k] == m;
      assert Matches(db.tasks[k], m.description, it.property);
      CountMatchesPositive(db.tasks, m.description, it.property);
    }
    assert HandleIntent(db, it, userId, now, norm) == Ok(Step(after, MarkedReply(m.description, it.property)));
  }

  /** Without a property the search is unscoped but the update still asks
      for a missing property: when every record has one, a pending match is
      never completed, the table is unchanged and the reply says so. */
  lemma UnscopedCompletionMisses(db: Store, it: Intent, userId: Value, now: Timestamp, norm: string -> string)
    requires db.Online? && it.kind == CompletedTask && it.description.Some? && it.property.None?
    requires forall k :: 0 <= k < |db.tasks| ==> db.tasks[k].property.Some?
    requires HasMatchIn(db, Pending, it.property, norm(it.description.value), norm)
    ensures exists m ::
      && m in db.tasks && m.status == Pending && IsMatch(m, norm(it.description.value), norm)
      && HandleIntent(db, it, userId, now, norm) == Ok(Step(db, CouldNotMarkReply(m.description, None)))
  {
    var key := norm(it.description.value);
    CompletedTaskDecision(db, it, userId, now, norm);
    var m := FindMatch(Candidates(db, Pending, None), key, norm).value;
    CompleteTaskSpec(db, m.description, None, now);
    var after := CompleteTask(db, m.description, None, now).value.0;
    assert forall k :: 0 <= k < |db.tasks| ==> !Matches(db.tasks[k], m.description, None);
    assert after.tasks == db.tasks;
  }

  /** Each intent reads the table its predecessors left: a second `new_task`
      in the same batch with the same key and property as the first, however
      it is worded, never adds a record, and when the first one added a
      record the second is rejected as its duplicate. */
  lemma RepeatedNewTask(db: Store, it: Intent, it2: Intent, userId: Value, now: Timestamp, norm: string -> string)
    requires db.Online? && it.kind == NewTask && it.description.Some?
    requires it2.kind == NewTask && it2.description.Some? && it2.property == it.property
    requires norm(it2.description.value) == norm(it.description.value)
    ensures var first := HandleIntent(db, it, userId, now, norm).value;
      var run := RunIntents(db, [it, it2], userId, now, norm);
      && run.error.None? && |run.replies| == 2
      && run.replies[0] == first.reply
      && run.store == first.store
      && (first.store != db ==> run.replies[1] == DuplicateReply(it2.description.value, it2.property))
  {
    var key := norm(it.description.value);
    NewTaskDecision(db, it, userId, now, norm);
    var first := HandleIntent(db, it, userId, now, norm).value;
    if first.store != db {
      var rec := Task(userId, it.description.value, it.property, it.cost, Pending, None);
      assert first.store.tasks == db.tasks + [rec];
      assert rec in first.store.tasks;
      assert Selected(rec, Some(Pending), it2.property) && IsMatch(rec, key, norm);
      assert HasMatchIn(first.store, Pending, it2.property, key, norm);
    }
    NewTaskDecision(first.store, it2, userId, now, norm);
    var second := HandleIntent(first.store, it2, userId, now, norm);
    assert second.Ok? && second.value.store == first.store;
    FoldPair(db, it, it2, Handler(userId, now, norm));
  }

  // ---------------------------------------------------------------------
  // Queries

  /** A listing is its empty text exactly when there are no records. */
  lemma ListingEmpty(title: string, empty: string, ts: seq<Task>, line: Task -> string)
    requires '\n' !in empty
    ensures Listing(title, empty, ts, line) == empty <==> ts == []
  {
    if ts != [] {
      var text := Listing(title, empty, ts, line);
      assert text[|title|] == '\n';
    }
  }

  /** A non-empty listing is its title followed by one line per record, in
      the order given. */
  lemma ListingLines(title: string, empty: string, ts: seq<Task>, line: Task -> string)
    requires ts != [] && '\n' !in title
    requires forall k :: 0 <= k < |ts| ==> '\n' !in line(ts[k])
    ensures Split(Listing(title, empty, ts, line), '\n') ==
      [title] + seq(|ts|, k requires 0 <= k < |ts| => line(ts[k]))
  {
    var lines := seq(|ts|, k requires 0 <= k < |ts| => line(ts[k]));
    var parts := [title] + lines;
    assert parts[1..] == lines;
    assert Join(parts, "\n") == title + "\n" + Join(lines, "\n");
    SplitJoin(parts, '\n');
  }

  /** A query is "not recognized" exactly when its lowercased text contains
      none of the keywords; otherwise the first keyword list that occurs
      picks the report. */
  lemma QueryRouting(db: Store, it: Intent, userId: Value, now: Timestamp, norm: string -> string)
    requires db.Online? && it.kind == Query && it.description.Some?
    ensures var q := Lower(it.description.value);
      var r := HandleIntent(db, it, userId, now, norm);
      && r.Ok? && r.value.store == db
      && (r.value.reply == "Query not recognized." <==>
            !ContainsAny(q, PendingWords) && !ContainsAny(q, CompletedWords) && !Contains(q, "central"))
      && (ContainsAny(q, PendingWords) ==> r.value.reply == PendingReport(db))
      && (!ContainsAny(q, PendingWords) && ContainsAny(q, CompletedWords) ==> r.value.reply == CompletedReport(db))
      && (!ContainsAny(q, PendingWords) && !ContainsAny(q, CompletedWords) && Contains(q, "central") ==>
            r.value.reply == CentralReport(db))
  {
    var q := Lower(it.description.value);
    var reply := HandleIntent(db, it, userId, now, norm).value.reply;
    if ContainsAny(q, PendingWords) || ContainsAny(q, CompletedWords) || Contains(q, "central") {
      assert reply[0] != 'Q' by {
        ListingStart(db);
      }
    }
  }

  /** When a query fails: without a description it fails first, whether or
      not there is a client; without a client it fails exactly when a keyword
      picks a report that would read the table, and an unrecognised query is
      still answered. */
  lemma QueryFailures(db: Store, it: Intent, userId: Value, now: Timestamp, norm: string -> string)
    requires it.kind == Query
    ensures var r := HandleIntent(db, it, userId, now, norm);
      && (it.description.None? ==> r == Err(NoDescription))
      && (it.description.Some? && db.Offline? ==>
            var q := Lower(it.description.value);
            var keyword := ContainsAny(q, PendingWords) || ContainsAny(q, CompletedWords) || Contains(q, "central");
            && (keyword ==> r == Err(NotInitialized))
            && (!keyword ==> r == Ok(Step(db, "Query not recognized."))))
      && (r.Err? ==> it.description.None? || db.Offline?)
  {
  }

  /** Every report starts with "P", "C" or "N". */
  lemma ListingStart(db: Store)
    requires db.Online?
    ensures PendingReport(db)[0] in {'P', 'N'}
    ensures CompletedReport(db)[0] in {'C', 'N'}
    ensures CentralReport(db)[0] in {'C', 'N'}
  {
  }

  // ---------------------------------------------------------------------
  // The batch as a whole

  /** A failing intent ends the batch: the writes of the intents before it
      stay, the intents after it do not run, and the message is its error. */
  lemma FailureReplied(db: Store, a: seq<Intent>, x: Intent, b: seq<Intent>, userId: Value, now: Timestamp, norm: string -> string)
    requires RunIntents(db, a, userId, now, norm).error.None?
    requires HandleIntent(RunIntents(db, a, userId, now, norm).store, x, userId, now, norm).Err?
    ensures var before := RunIntents(db, a, userId, now, norm);
      var run := RunIntents(db, a + [x] + b, userId, now, norm);
      && run.store == before.store
      && ReplyText(run) == "Error: " + HandleIntent(before.store, x, userId, now, norm).error
  {
    FailureKeepsEarlierWrites(db, a, x, b, Handler(userId, now, norm));
  }

  /** Every intent keeps the table well formed. */
  lemma HandleIntentKeepsWellFormed(db: Store, it: Intent, userId: Value, now: Timestamp, norm: string -> string)
    requires StoreWellFormed(db)
    requires HandleIntent(db, it, userId, now, norm).Ok?
    ensures StoreWellFormed(HandleIntent(db, it, userId, now, norm).value.store)
  {
    if db.Online? && it.description.Some? {
      if it.kind == NewTask {
        NewTaskDecision(db, it, userId, now, norm);
        AddTaskKeepsWellFormed(db, NewRecord(it, userId));
      } else if it.kind == CompletedTask {
        CompletedTaskDecision(db, it, userId, now, norm);
        var found := FindMatch(Candidates(db, Pending, it.property), norm(it.description.value), norm);
        if found.Some? {
          CompleteTaskMonotone(db, found.value.description, it.property, now);
        } else {
          AddTaskKeepsWellFormed(db, CompletedRecord(it, userId, now));
        }
      }
    }
  }

  /** The whole batch keeps the table well formed. */
  lemma RunKeepsWellFormed(db: Store, its: seq<Intent>, userId: Value, now: Timestamp, norm: string -> string)
    requires StoreWellFormed(db)
    ensures StoreWellFormed(RunIntents(db, its, userId, now, norm).store)
  {
    var handle := Handler(userId, now, norm);
    forall s, i | StoreWellFormed(s) && handle(s, i).Ok?
      ensures StoreWellFormed(handle(s, i).value.store)
    {
      HandleIntentKeepsWellFormed(s, i, userId, now, norm);
    }
    FoldKeeps(db, its, handle, StoreWellFormed);
  }

  /** Every intent only makes allowed changes: no record is deleted, none
      changes its description or property, and a completed record is never
      touched again. */
  lemma HandleIntentEvolves(db: Store, it: Intent, userId: Value, now: Timestamp, norm: string -> string)
    requires HandleIntent(db, it, userId, now, norm).Ok?
    ensures Evolves(db, HandleIntent(db, it, userId, now, norm).value.store)
  {
    if db.Online? && it.description.Some? {
      if it.kind == NewTask {
        NewTaskDecision(db, it, userId, now, norm);
        WritesEvolve(db, NewRecord(it, userId), it.description.value, it.property, now);
      } else if it.kind == CompletedTask {
        CompletedTaskDecision(db, it, userId, now, norm);
        var found := FindMatch(Candidates(db, Pending, it.property), norm(it.description.value), norm);
        var description := if found.Some? then found.value.description else it.description.value;
        WritesEvolve(db, CompletedRecord(it, userId, now), description, it.property, now);
      }
    }
  }

  /** The whole batch only makes allowed changes, whatever its intents. */
  lemma RunEvolves(db: Store, its: seq<Intent>, userId: Value, now: Timestamp, norm: string -> string)
    ensures Evolves(db, RunIntents(db, its, userId, now, norm).store)
  {
    var handle := Handler(userId, now, norm);
    forall s, i | handle(s, i).Ok?
      ensures Evolves(s, handle(s, i).value.store)
    {
      HandleIntentEvolves(s, i, userId, now, norm);
    }
    forall a, b, c | Evolves(a, b) && Evolves(b, c)
      ensures Evolves(a, c)
    {
      EvolvesTransitive(a, b, c);
    }
    FoldSteps(db, its, handle, Evolves);
  }

  /** When no intent fails and every reply is one line, the message has
      exactly one line per intent, in intent order. */
  lemma ReplyLines(run: Run<Store>)
    requires run.error.None? && run.replies != []
    requires forall k :: 0 <= k < |run.replies| ==> '\n' !in run.replies[k]
    ensures Split(ReplyText(run), '\n') == run.replies
  {
    SplitJoin(run.replies, '\n');
  }
}

=== FILE: telegram.dfy ===
/** Decoding of a Telegram Bot API `Update` object into the four fields the
    bot uses (`extract_message_info`). */
module Telegram {
  import opened Wrappers
  import opened Json

  datatype MessageInfo = MessageInfo(chatId: Value, userId: Value, text: Value, messageId: Value)

  /** `d[a][b]` holds: `d` has key `a` whose value is a dictionary with key `b`. */
  predicate HasPath(d: Value, a: string, b: string) {
    d.Obj? && a in d.fields && d.fields[a].Obj? && b in d.fields[a].fields
  }

  /** The dictionary built from the selected message. A missing `chat.id`,
      `from.id` or `message_id` raises; a missing `text` becomes "". */
  function DecodeMessage(m: Value): (r: Result<MessageInfo>)
    ensures r.Ok? <==> HasPath(m, "chat", "id") && HasPath(m, "from", "id") && "message_id" in m.fields
    ensures r.Ok? ==> r.value == MessageInfo(
      m.fields["chat"].fields["id"],
      m.fields["from"].fields["id"],
      if "text" in m.fields then m.fields["text"] else Str(""),
      m.fields["message_id"])
  {
    var chat :- Index(m, "chat");
    var chatId :- Index(chat, "id");
    var from :- Index(m, "from");
    var userId :- Index(from, "id");
    // `m` is a dictionary once `m['chat']` succeeded, so `m.get` cannot fail.
    var text := Get(m, "text", Str("")).value;
    var messageId :- Index(m, "message_id");
    Ok(MessageInfo(chatId, userId, text, messageId))
  }

  /** `update.get('message') or update.get('edited_message')`. */
  function SelectMessage(update: Value): (r: Result<Value>)
    requires update.Obj?
  {
    var message :- Get(update, "message", Null);
    if Truthy(message) then Ok(message) else Get(update, "edited_message", Null)
  }

  /** `extract_message_info(update)`: `None` for the empty dictionary it
      returns when there is no message. There is nothing to decode exactly
      when neither `message` nor `edited_message` is present and non-empty;
      a non-empty `message` is decoded whatever `edited_message` holds. */
  function ExtractMessageInfo(update: Value): (r: Result<Option<MessageInfo>>)
    ensures !update.Obj? ==> r == Err("AttributeError: object has no attribute 'get'")
    ensures update.Obj? ==>
      (r == Ok(None) <==> !Truthy(Field(update, "message")) && !Truthy(Field(update, "edited_message")))
    ensures update.Obj? && Truthy(Field(update, "message")) ==>
      r == OkSome(DecodeMessage(Field(update, "message")))
    ensures update.Obj? && !Truthy(Field(update, "message")) && Truthy(Field(update, "edited_message")) ==>
      r == OkSome(DecodeMessage(Field(update, "edited_message")))
  {
    if !update.Obj? then Err("AttributeError: object has no attribute 'get'")
    else
      var message :- SelectMessage(update);
      if !Truthy(message) then Ok(None)
      else
        var info :- DecodeMessage(message);
        Ok(Some(info))
  }

  /** The field of an update, with `None` for a missing key. */
  function Field(update: Value, key: string): Value
    requires update.Obj?
  {
    if key in update.fields then update.fields[key] else Null
  }

  function OkSome(r: Result<MessageInfo>): Result<Option<MessageInfo>> {
    if r.Ok? then Ok(Some(r.value)) else Err(r.error)
  }

  /** The update Telegram sends for a message carrying `info`. */
  function EncodeUpdate(info: MessageInfo, edited: bool): Value {
    var message := Obj(map[
      "chat" := Obj(map["id" := info.chatId]),
      "from" := Obj(map["id" := info.userId]),
      "text" := info.text,
      "message_id" := info.messageId]);
    Obj(map[(if edited then "edited_message" else "message") := message])
  }

  /** Decoding an encoded message gives the fields back, for a new and for an
      edited message alike. */
  lemma ExtractEncoded(info: MessageInfo, edited: bool)
    ensures ExtractMessageInfo(EncodeUpdate(info, edited)) == Ok(Some(info))
  {
    var u := EncodeUpdate(info, edited);
    var m := u.fields[if edited then "edited_message" else "message"];
    assert "chat" in m.fields;
    assert Truthy(m);
    assert DecodeMessage(m) == Ok(info);
  }

  /** A message without `text` decodes with the empty text, which the webhook
      then ignores. */
  lemma MissingTextIsEmpty(m: Value)
    requires HasPath(m, "chat", "id") && HasPath(m, "from", "id") && "message_id" in m.fields
    requires "text" !in m.fields
    ensures ExtractMessageInfo(Obj(map["message" := m])) == Ok(Some(DecodeMessage(m).value))
    ensures DecodeMessage(m).value.text == Str("") && !Truthy(DecodeMessage(m).value.text)
  {
    assert Truthy(m) by {
      assert "chat" in m.fields;
    }
  }
}

=== FILE: text.dfy ===
/** ASCII string helpers standing in for the Python built-ins the bot relies on:
    `str.lower`, the regex classes `\w` and `\s`, the `in` substring test,
    `str.join` and the decimal rendering of an integer in an f-string. */
module Text {

  predicate IsUpper(c: char) {
    'A' <= c <= 'Z'
  }

  predicate IsLowerLetter(c: char) {
    'a' <= c <= 'z'
  }

  predicate IsDigit(c: char) {
    '0' <= c <= '9'
  }

  /** Python's `\w` restricted to ASCII: `[A-Za-z0-9_]`. */
  predicate IsWordChar(c: char) {
    IsUpper(c) || IsLowerLetter(c) || IsDigit(c) || c == '_'
  }

  /** Python's `\s` and `str.isspace` restricted to ASCII. */
  predicate IsSpace(c: char) {
    c == ' ' || c == '\t' || c == '\n' || c == '\r' || c == '\U{B}' || c == '\U{C}'
    || ('\U{1C}' <= c <= '\U{1F}')
  }

  /** A character of the ASCII range, on which the classes above agree with
      Python's Unicode `\w` and `\s`. */
  predicate IsAsciiChar(c: char) {
    c as int < 128
  }

  predicate IsAscii(s: string) {
    forall i :: 0 <= i < |s| ==> IsAsciiChar(s[i])
  }

  function LowerChar(c: char): (r: char)
    ensures !IsUpper(r)
    ensures IsUpper(c) ==> IsLowerLetter(r) && r as int - c as int == 32
    ensures !IsUpper(c) ==> r == c
  {
    if IsUpper(c) then (c as int + 32) as char else c
  }

  /** `str.lower()` on ASCII text. */
  function Lower(s: string): (r: string)
    ensures |r| == |s|
    ensures forall i :: 0 <= i < |s| ==> r[i] == LowerChar(s[i])
  {
    if s == [] then [] else [LowerChar(s[0])] + Lower(s[1..])
  }

  /** `needle` occurs in `hay` starting at index `i`. */
  predicate OccursAt(hay: string, needle: string, i: nat) {
    i + |needle| <= |hay| && hay[i..i + |needle|] == needle
  }

  /** Python's `needle in hay` for strings, as a left-to-right scan. */
  function Contains(hay: string, needle: string): (r: bool)
    ensures r <==> exists i: nat :: OccursAt(hay, needle, i)
    decreases |hay|
  {
    if |needle| <= |hay| && hay[..|needle|] == needle then
      assert OccursAt(hay, needle, 0);
      true
    else if hay == [] then
      assert forall i: nat :: !OccursAt(hay, needle, i);
      false
    else
      var rest := Contains(hay[1..], needle);
      assert forall i: nat :: OccursAt(hay[1..], needle, i) <==> OccursAt(hay, needle, i + 1);
      assert !OccursAt(hay, needle, 0);
      assert (exists i: nat :: OccursAt(hay, needle, i)) ==> exists i: nat :: OccursAt(hay[1..], needle, i) by {
        if i: nat :| OccursAt(hay, needle, i) {
          assert i > 0;
          assert OccursAt(hay[1..], needle, i - 1);
        }
      }
      rest
  }

  /** `sep.join(parts)`. */
  function Join(parts: seq<string>, sep: string): string {
    if |parts| == 0 then ""
    else if |parts| == 1 then parts[0]
    else parts[0] + sep + Join(parts[1..], sep)
  }

  /** Joining two non-empty lists puts exactly one separator between them. */
  lemma {:induction false} JoinAppend(a: seq<string>, b: seq<string>, sep: string)
    requires |a| > 0 && |b| > 0
    ensures Join(a + b, sep) == Join(a, sep) + sep + Join(b, sep)
    decreases |a|
  {
    if |a| == 1 {
      assert (a + b)[1..] == b;
    } else {
      assert (a + b)[1..] == a[1..] + b;
      JoinAppend(a[1..], b, sep);
    }
  }

  function DigitChar(d: nat): (r: char)
    requires d < 10
    ensures IsDigit(r) && r as int - '0' as int == d
  {
    (d + '0' as int) as char
  }

  predicate AllDigits(s: string) {
    forall i :: 0 <= i < |s| ==> IsDigit(s[i])
  }

  /** The decimal text of a natural number, as `str(n)` or `f"{n}"` gives it. */
  function NatToString(n: nat): (r: string)
    ensures |r| > 0 && AllDigits(r)
    ensures r[0] == '0' ==> n == 0
    decreases n
  {
    if n < 10 then [DigitChar(n)] else NatToString(n / 10) + [DigitChar(n % 10)]
  }

  /** Reads a string of decimal digits back as a number. */
  function ParseDigits(s: string): nat
    requires AllDigits(s)
  {
    if s == [] then 0 else ParseDigits(s[..|s| - 1]) * 10 + (s[|s| - 1] as int - '0' as int)
  }

  /** The rendering loses nothing: parsing it gives the number back. */
  lemma {:induction false} ParseNatToString(n: nat)
    ensures ParseDigits(NatToString(n)) == n
    decreases n
  {
    var r := NatToString(n);
    if n >= 10 {
      ParseNatToString(n / 10);
      assert r[..|r| - 1] == NatToString(n / 10);
    } else {
      assert r[..|r| - 1] == [];
    }
  }

  /** `s.split(sep)` for a one-character separator: the pieces between
      separators, always at least one. */
  function Split(s: string, sep: char): (r: seq<string>)
    ensures |r| > 0
    decreases |s|
  {
    if s == [] then [""]
    else
      var rest := Split(s[1..], sep);
      if s[0] == sep then [""] + rest else [[s[0]] + rest[0]] + rest[1..]
  }

  /** Text in front of the first separator joins the first piece. */
  lemma {:induction false} SplitPrefix(a: string, b: string, sep: char)
    requires sep !in a
    ensures Split(a + b, sep) == [a + Split(b, sep)[0]] + Split(b, sep)[1..]
    decreases |a|
  {
    var r := Split(b, sep);
    if a == [] {
      assert a + b == b;
      assert a + r[0] == r[0];
      assert [r[0]] + r[1..] == r;
    } else {
      assert (a + b)[1..] == a[1..] + b;
      SplitPrefix(a[1..], b, sep);
      assert [a[0]] + (a[1..] + Split(b, sep)[0]) == a + Split(b, sep)[0];
    }
  }

  /** Splitting undoes joining when no part contains the separator. */
  lemma {:induction false} SplitJoin(parts: seq<string>, sep: char)
    requires |parts| > 0
    requires forall k :: 0 <= k < |parts| ==> sep !in parts[k]
    ensures Split(Join(parts, [sep]), sep) == parts
    decreases |parts|
  {
    if |parts| == 1 {
      SplitPrefix(parts[0], "", sep);
      assert parts[0] + "" == parts[0];
    } else {
      var tail := Join(parts[1..], [sep]);
      SplitJoin(parts[1..], sep);
      assert Join(parts, [sep]) == parts[0] + ([sep] + tail);
      SplitPrefix(parts[0], [sep] + tail, sep);
      assert ([sep] + tail)[1..] == tail;
      assert parts[0] + "" == parts[0];
      assert [parts[0]] + parts[1..] == parts;
    }
  }
}

=== FILE: utils.dfy ===
/** The digest texts: `format_task_list` for the daily pending list and
    `format_summary` for the weekly completed summary, together with the
    way an f-string renders the optional fields of a record. */
module Utils {
  import opened Wrappers
  import opened Text
  import opened Db

  /** `f"{p}"` for an optional string: `None` renders as "None". */
  function ShowOption(p: Option<string>): string {
    if p.None? then "None" else p.value
  }

  /** `f"{cost}"` for an optional whole-number cost. */
  function ShowCost(c: Option<nat>): string {
    if c.None? then "None" else NatToString(c.value)
  }

  /** `f"{completed_at}"` for an optional timestamp. */
  function ShowTime(t: Option<Timestamp>): string {
    if t.None? then "None" else NatToString(t.value)
  }

  /** `str(total_cost)`: the integer 0 of an empty sum, or a whole float. */
  function ShowAmount(a: Amount): string {
    match a
    case IntZero => "0"
    case Float(n) => NatToString(n) + ".0"
  }

  /** Python truthiness of `t.get('cost')`: neither missing nor zero. */
  predicate CostTruthy(c: Option<nat>) {
    c.Some? && c.value != 0
  }

  /** No line break inside a field, so one record is one line of text. */
  predicate OneLine(t: Task) {
    '\n' !in t.description && '\n' !in ShowOption(t.property)
  }

  // ---------------------------------------------------------------------
  // format_task_list

  /** The part of a task-list line every record has. */
  function ListPrefix(t: Task): string {
    "- " + t.description + " (" + ShowOption(t.property) + ")"
  }

  /** The cost suffix, present only for a truthy cost. */
  function CostSuffix(c: Option<nat>): string {
    if CostTruthy(c) then " [cost: " + NatToString(c.value) + "]" else ""
  }

  function TaskListLine(t: Task): string {
    ListPrefix(t) + CostSuffix(t.cost)
  }

  function TaskListLines(ts: seq<Task>): (r: seq<string>)
    ensures |r| == |ts|
  {
    seq(|ts|, k requires 0 <= k < |ts| => TaskListLine(ts[k]))
  }

  /** `format_task_list(tasks)`. */
  function FormatTaskList(ts: seq<Task>): string {
    if ts == [] then "No tasks." else Join(TaskListLines(ts), "\n")
  }

  /** The cost can be read back from a line: the suffix is present exactly
      for a truthy cost, and its digits are that cost. */
  lemma TaskListLineCost(t: Task)
    ensures TaskListLine(t)[..|ListPrefix(t)|] == ListPrefix(t)
    ensures var rest := TaskListLine(t)[|ListPrefix(t)|..];
      && (rest != "" <==> CostTruthy(t.cost))
      && (rest != "" ==>
            |rest| > 9 && AllDigits(rest[8..|rest| - 1]) && ParseDigits(rest[8..|rest| - 1]) == t.cost.value)
  {
    var rest := TaskListLine(t)[|ListPrefix(t)|..];
    assert rest == CostSuffix(t.cost);
    if CostTruthy(t.cost) {
      var digits := NatToString(t.cost.value);
      assert rest == " [cost: " + digits + "]";
      assert rest[8..|rest| - 1] == digits;
      ParseNatToString(t.cost.value);
    }
  }

  lemma DigitsOneLine(n: nat)
    ensures '\n' !in NatToString(n)
  {
  }

  lemma TaskListLineOneLine(t: Task)
    requires OneLine(t)
    ensures '\n' !in TaskListLine(t)
  {
    if CostTruthy(t.cost) {
      DigitsOneLine(t.cost.value);
    }
  }

  /** The empty list, and only the empty list, renders as "No tasks.". */
  lemma FormatTaskListEmpty(ts: seq<Task>)
    ensures FormatTaskList(ts) == "No tasks." <==> ts == []
  {
    if ts != [] {
      var lines := TaskListLines(ts);
      assert lines[0][0] == '-';
      assert Join(lines, "\n")[0] == lines[0][0];
    }
  }

  /** A non-empty list renders as one line per record, in order: splitting
      the text at line breaks gives back the lines. */
  lemma FormatTaskListLines(ts: seq<Task>)
    requires ts != []
    requires forall k :: 0 <= k < |ts| ==> OneLine(ts[k])
    ensures Split(FormatTaskList(ts), '\n') == TaskListLines(ts)
    ensures forall k :: 0 <= k < |ts| ==>
      Split(FormatTaskList(ts), '\n')[k][..|ListPrefix(ts[k])|] == ListPrefix(ts[k])
  {
    var lines := TaskListLines(ts);
    forall k | 0 <= k < |lines|
      ensures '\n' !in lines[k]
    {
      TaskListLineOneLine(ts[k]);
    }
    SplitJoin(lines, '\n');
    forall k | 0 <= k < |ts|
      ensures lines[k][..|ListPrefix(ts[k])|] == ListPrefix(ts[k])
    {
      TaskListLineCost(ts[k]);
    }
  }

  /** Rendering two non-empty lists one after the other is rendering their
      concatenation. */
  lemma FormatTaskListAppend(a: seq<Task>, b: seq<Task>)
    requires a != [] && b != []
    ensures FormatTaskList(a + b) == FormatTaskList(a) + "\n" + FormatTaskList(b)
  {
    assert TaskListLines(a + b) == TaskListLines(a) + TaskListLines(b);
    JoinAppend(TaskListLines(a), TaskListLines(b), "\n");
  }

  // ---------------------------------------------------------------------
  // format_summary

  function SummaryHeader(s: Summary): string {
    "Completed this week: " + NatToString(s.count) + " tasks, total cost: " + ShowAmount(s.total)
  }

  function SummaryLine(t: Task): string {
    "- " + t.description + " (" + ShowOption(t.property) + ") [cost: " + ShowCost(t.cost)
    + "] on " + ShowTime(t.completedAt)
  }

  function SummaryLines(ts: seq<Task>): (r: seq<string>)
    ensures |r| == |ts|
  {
    seq(|ts|, k requires 0 <= k < |ts| => SummaryLine(ts[k]))
  }

  /** `format_summary(summary)`. */
  function FormatSummary(s: Summary): string {
    Join([SummaryHeader(s)] + SummaryLines(s.tasks), "\n")
  }

  lemma ShowOneLine(t: Task)
    requires OneLine(t)
    ensures '\n' !in SummaryLine(t)
  {
    if t.cost.Some? {
      DigitsOneLine(t.cost.value);
    }
    if t.completedAt.Some? {
      DigitsOneLine(t.completedAt.value);
    }
  }

  /** The summary is the header followed by exactly one line per record, in
      order. */
  lemma FormatSummaryLines(s: Summary)
    requires forall k :: 0 <= k < |s.tasks| ==> OneLine(s.tasks[k])
    ensures Split(FormatSummary(s), '\n') == [SummaryHeader(s)] + SummaryLines(s.tasks)
    ensures |Split(FormatSummary(s), '\n')| == |s.tasks| + 1
  {
    var parts := [SummaryHeader(s)] + SummaryLines(s.tasks);
    DigitsOneLine(s.count);
    if s.total.Float? {
      DigitsOneLine(s.total.whole);
    }
    forall k | 0 <= k < |parts|
      ensures '\n' !in parts[k]
    {
      if k > 0 {
        ShowOneLine(s.tasks[k - 1]);
      }
    }
    SplitJoin(parts, '\n');
  }

  /** The header shows the count and the total of the summary; an empty week
      shows the integer total "0" and any other week a float total. */
  lemma SummaryHeaderReadsBack(s: Summary)
    ensures var h := SummaryHeader(s);
      var n := NatToString(s.count);
      && h[21..21 + |n|] == n
      && ParseDigits(h[21..21 + |n|]) == s.count
      && (s.total.Float? <==> h[|h| - 2..] == ".0")
  {
    var h := SummaryHeader(s);
    var n := NatToString(s.count);
    assert h[21..21 + |n|] == n;
    ParseNatToString(s.count);
    if s.total.IntZero? {
      assert h[|h| - 2] == ' ';
    }
  }
}

=== FILE: wrappers.dfy ===
/** Failure-compatible Option and Result datatypes shared by the whole model.
    A Python `None` becomes `None`; a raised exception becomes `Err` carrying
    a text. For the failures the bot reports back (a missing client, a
    missing description) it is the text `str(e)` would show; the decoding
    errors carry a text of their own that names the exception. */
module Wrappers {

  datatype Option<+T> = None | Some(value: T)

  /** The outcome of an operation that may raise: either a value or the
      message of the exception it raised. */
  datatype Result<+T> = Ok(value: T) | Err(error: string) {

    predicate IsFailure() {
      Err?
    }

    function PropagateFailure<U>(): Result<U>
      requires Err?
    {
      Err(error)
    }

    function Extract(): T
      requires Ok?
    {
      value
    }
  }
}
